=== FILE: README.md ===
# eve-cloner core in Dafny

eve-cloner copies one EVE Online account's settings file (`core_user_<id>.dat`)
and one character's settings file (`core_char_<id>.dat`) over every other
account's and character's file in a settings directory, after taking a
backup of that directory. This project models the part of the program that
does the work once the operator's choices are known:

- the settings-file pattern `/core_(user|char)_(\d+).dat$/` (`SettingsFile`);
- the recursive file lister and directory lister (`FileLister`, `DirLister`),
  with the `[...new Set(xs)]` idiom the directory lister ends with (`InsertionSet`);
- the flattening recursive copy used for the backup (`CopyRecursive`);
- the backup directory name (`Backup`);
- `index`, which files every settings file under its category and id (`Indexer`);
- `dupe`, which fans the chosen source file out over its category (`Cloner`);
- `getSettingsIds`, which lists the ids offered to the operator, newest first (`SettingsIds`);
- the run order: backup, index, user fan-out, character fan-out (`Driver`).

The modelling choices:

- A resolved path is a sequence of segments (`Base.Path`). `PathString`
  renders it as `path.resolve` prints it on a POSIX host, and the pattern runs on that text,
  as the program runs it on the whole path.
- The filesystem is a tree (`FileTree.Node`): a directory holds an ordered
  list of named entries, which is the `readdir` order. Within a directory,
  entry names are distinct. Each name is non-empty, is not `.` or `..`, and
  contains no `/`, as on a real disk. On such paths, equal text means an
  equal path (`Base.PathStringInjective`), so comparing segment sequences is
  the program's string comparison. Anything that is not a
  directory is a `Leaf`, just as `lstat(...).isDirectory()` is false for
  regular files and symbolic links alike.
- File bytes are a separate map from path to content (`Base.Contents`).
- `copyRecursiveSync` is described by the sequence of calls it makes to its
  two helpers (`CopyRecursive.Op`). `Apply` gives those calls their effect:
  `ensureRecursiveSync` changes no file, and `copyFileSync(from, dir)` writes
  `from`'s bytes to `dir/<basename of from>`. A copy whose source is missing
  fails, and the writes made before it remain.
- Modification times and the clock are parameters.
- The indexer, the id lister and the driver lemmas are stated for any path
  classifier `cls`. The program's classifier is `Indexer.ClassifyPath` (the
  pattern on the path text), and `Driver.Run` is `Driver.RunWith` applied to
  it. This keeps the string reasoning about the pattern out of the proofs about
  the loops. Every lemma stated for all classifiers holds for the program's.

The `.` before `dat` at `src/index.js:13` is not escaped. It matches any
one UTF-16 code unit other than a JavaScript line terminator, not only a
literal dot. `SettingsFile.DotMatchesSeparator` and
`SettingsFile.DotTakesLastDigit` show two consequences. The pattern has no
`u` flag, so a character outside the Basic Multilingual Plane is two code
units, and the `.` cannot take it (`SettingsFile.WideCharBeforeDatNoMatch`).

## Model

| member | source | states |
|---|---|---|
| SettingsFile.Classify | src/index.js:13 | The classifier reads the pattern from the end: `dat`, one character the `.` matches, the longest digit run, then `core_user_` or `core_char_`. A reported id is a non-empty run of ASCII digits. |
| SettingsFile.ClassifyIffMatches | src/index.js:13 | A path text classifies as category `cat` and id `id` exactly when it ends with `core_<cat>_<id>`, then `dat`, with one character in between that the `.` matches: a single UTF-16 code unit that is not a line terminator. `id` is a non-empty run of ASCII digits. Both directions are proved. |
| SettingsFile.ClassifySound | src/index.js:13 | Whatever the classifier reports is a match of the pattern at the end of the text. |
| SettingsFile.ClassifyComplete | src/index.js:13 | Every match of the pattern is reported, with the category word and the digit run it captures. |
| SettingsFile.TrailingDigits | src/index.js:13 | The `\d+` group takes the longest digit run that ends four characters before the end, so the character before it is not a digit. |
| SettingsFile.MatchUnique | src/index.js:13 | The two capture groups are determined by the text: no text matches with two categories or two ids. |
| SettingsFile.ClassifyFileName | src/index.js:13 | A file named `core_<cat>_<id>.dat` classifies as that category and id, whatever directory it is in. |
| SettingsFile.DotMatchesSeparator | src/index.js:13 | Because the dot is unescaped, `/settings/core_user_12/dat` (a file `dat` in a directory `core_user_12`) is taken for user 12's settings file. |
| SettingsFile.DotTakesLastDigit | src/index.js:13 | Because the dot is unescaped, `core_char_123dat` classifies as character `12`: the dot consumes the last digit. |
| SettingsFile.WideCharBeforeDatNoMatch | src/index.js:13 | `core_user_12` followed by U+1F600 and `dat` is not a settings file. The character is two code units: the `.` takes the second, and the first is not a digit. |
| FileLister.FileListing | src/utils/getFileListingRecursiveSync.js:4-14 | The file walker. A non-directory lists as itself. A directory lists its entries' listings, concatenated in `readdir` order. Its properties are the `FileLister` lemmas below. |
| FileLister.FileListingAt | src/utils/getFileListingRecursiveSync.js:4-6 | Listing a path fails with a filesystem access error exactly when the tree has no node at that path. |
| FileLister.ListingIffLeaf | src/utils/getFileListingRecursiveSync.js:4-14 | On a well-formed tree, a path is listed exactly when it is the path of a non-directory below the root. |
| FileLister.ListingComplete | src/utils/getFileListingRecursiveSync.js:6-13 | Every non-directory below the root is listed. |
| FileLister.ListingSound | src/utils/getFileListingRecursiveSync.js:6-13 | Every listed path is a non-directory of the tree, never a directory. |
| FileLister.ListingDistinct | src/utils/getFileListingRecursiveSync.js:9-13 | No path is listed twice. |
| FileLister.ListingLength | src/utils/getFileListingRecursiveSync.js:4-14 | The listing has exactly one entry per non-directory of the tree. |
| FileLister.ListingValid | src/utils/getFileListingRecursiveSync.js:9-12 | Below a root made of valid names, every listed path is made of valid names, so `Base.PathStringInjective` applies to it. |
| Base.PathStringInjective | src/index.js:59 | Two paths made of valid names with the same text are the same path. The `===` on path strings is therefore equality of resolved paths. |
| FileLister.ListingUnderRoot | src/utils/getFileListingRecursiveSync.js:8-12 | Every listed path lies below the root path; below a directory it is strictly longer. |
| InsertionSet.Dedup | src/utils/getDirListingRecursiveSync.js:13 | `[...new Set(xs)]` holds each element of `xs` once, nothing else, in order of first occurrence. |
| InsertionSet.ExtendOrder | src/utils/getDirListingRecursiveSync.js:13 | Inserting into a `Set` adds the new elements in order of their first occurrence. |
| InsertionSet.DedupOfDedups | src/utils/getDirListingRecursiveSync.js:9-13 | Deduplicating two parts separately, concatenating them and deduplicating again equals deduplicating the plain concatenation once. A directory's listing has this shape: each child's listing is deduplicated before the whole is. |
| DirLister.DirListing | src/utils/getDirListingRecursiveSync.js:4-14 | The directory walker. A non-directory lists as its parent directory. A directory lists the deduplicated concatenation of its entries' listings. |
| DirLister.DirListingIsParentsOfFiles | src/utils/getDirListingRecursiveSync.js:4-14 | The directory listing is the deduplicated list of the parents of the file listing of the same root, in first-occurrence order. |
| DirLister.DirListingSpec | src/utils/getDirListingRecursiveSync.js:4-14 | The directory listing has no repeats, holds exactly the parents of the listed files, and orders them by first occurrence. |
| DirLister.DirListedIffHasLeaf | src/utils/getDirListingRecursiveSync.js:4-14 | Below a directory root, a directory is listed exactly when it directly holds a non-directory. Empty directories and directories holding only directories are not listed. |
| CopyRecursive.CopyPlan | src/utils/copyRecursiveSync.js:7-25 | The calls one copy makes, in order. First it ensures the target. Then, for a directory, each file entry is copied into the target, and each directory entry recursively, in `readdir` order. |
| CopyRecursive.Apply | src/utils/copyRecursiveSync.js:7-25 | The effect of those calls. Ensuring the target changes no file. A copy of a readable file writes its bytes to `target/<basename>`. A copy of a missing file stops with a filesystem access error, keeping the writes already made. |
| CopyRecursive.CopyRecursiveSync | src/utils/copyRecursiveSync.js:7-14 | The copy always begins by ensuring the target. It fails exactly when the tree has no node at the source path, and then only the target has been ensured. |
| CopyRecursive.CopyPlanShape | src/utils/copyRecursiveSync.js:14-23 | Every call goes to the one target. For a directory, the files copied are exactly the file listing of the source, in listing order. A non-directory source copies nothing. |
| CopyRecursive.CollectedKeys | src/utils/copyRecursiveSync.js:16-22 | The files the copy writes are exactly the target paths `target/<basename>` of the listed files. |
| CopyRecursive.CollectedLastWins | src/utils/copyRecursiveSync.js:16-22 | Of several source files with the same base name, the last in listing order supplies the bytes. |
| CopyRecursive.CopyEffect | src/utils/copyRecursiveSync.js:7-25 | When no source file sits directly in the target and all are readable, the copy succeeds. It adds the flattened files and changes nothing else. |
| CopyRecursive.CopyTwice | src/utils/copyRecursiveSync.js:7-25 | Under the same conditions, repeating the copy changes nothing: the flattening copy is idempotent. |
| Backup.BackupPath | src/index.js:30-31 | The backup directory has the source's parent and the base name `<basename>_backup<ts>`. |
| Backup.BackupTemplate | src/index.js:31 | The template string the program builds: the source's dirname text, `/`, the base name, `_backup` and the clock reading in decimal. |
| Backup.TemplateIsBackupPath | src/index.js:31 | The template string equals the text of that path for a source two or more levels deep. For a top-level source it starts with `//`. |
| Backup.BackupIsSibling | src/index.js:30-33 | For a source other than the root, neither the backup nor the source lies inside the other. |
| Backup.BackupPathInjective | src/index.js:31 | Backups taken at different clock readings go to different directories. |
| Backup.SourceFilesOutsideBackup | src/index.js:30-33 | No file of a non-root source directory sits directly in the backup directory, so the copy can read all of them. |
| Indexer.IndexStep | src/index.js:42-49 | The `forEach` callback. A path that does not match, or whose id is excluded for its category, leaves the index as it was. Otherwise the path is stored under its category and id. |
| Indexer.Index | src/index.js:38-51 | `index`: the callback applied to the listed paths in listing order, starting from empty collections. Its properties are the `Indexer` lemmas below. |
| Indexer.StepEffect | src/index.js:42-49 | One callback step stores the path under its category and id exactly when it matches and the id is not excluded. Otherwise the collection is unchanged. |
| Indexer.IndexDomain | src/index.js:38-51 | An id is in a category's collection exactly when some listed path classifies as that category and id and the id is not excluded. |
| Indexer.IndexValues | src/index.js:42-49 | Every stored path is a listed path that classifies as the category and id it is stored under, and no stored id is excluded. |
| Indexer.IndexLastWins | src/index.js:42-49 | For a non-excluded id, the stored path is the last listed path carrying that category and id. |
| Cloner.Targets | src/index.js:57-59 | The files the fan-out writes are the indexed paths of the category other than the source's path. |
| Cloner.Fanout | src/index.js:57-60 | The contents after the fan-out's copies: each target path holds the source's bytes, and every other path keeps its bytes. |
| Cloner.Dupe | src/index.js:53-63 | An id missing from the index fails with a not-found error naming it. If there is at least one target, an unreadable source fails before anything is written. Otherwise each other indexed file receives the source's bytes, and every other file, the source included, is unchanged. |
| Cloner.DupeSequential | src/index.js:57-62 | Copying key by key, skipping the source's own path, in any order of the keys, gives exactly `Dupe`'s outcome. |
| Cloner.DupeTwice | src/index.js:53-63 | A second fan-out from the same source changes nothing. |
| Cloner.NotFoundNamesSettingsFile | src/index.js:56 | The not-found message ends by quoting `core_<cat>_<id>.dat`, a name the pattern recognises as the missing id's settings file. |
| Cloner.TwoUsersScenario | src/index.js:53-63 | Two users whose files hold `A` and `B`: cloning from user 1 leaves both files holding `A`. |
| SettingsIds.Selected | src/index.js:175-177 | The filter keeps exactly the listed paths that match the pattern with the requested category and a non-excluded id. |
| SettingsIds.SelectedConcat | src/index.js:175-177 | The filter works element by element: filtering a concatenation concatenates the filtered parts. So it keeps listing order and multiplicity. |
| SettingsIds.SortNewestFirst | src/index.js:178 | The sort with comparator `mtime(b) - mtime(a)`: an insertion sort that puts each path after every path at least as recent. |
| SettingsIds.SortSpec | src/index.js:178 | The sort is a permutation, puts newer files first, and keeps files of equal modification time in listing order (a stable sort). |
| SettingsIds.TiesInListingOrder | src/index.js:175-178 | For every modification time, the ranked files of that time are the selected files of that time, in listing order. Among several newest files, the prompt's default is the one listed first. |
| SettingsIds.IdsFromListing | src/index.js:175-181 | The id list from one listing: filter, sort newest first, then map each path to its captured id. Its properties are `OfferedIff`, `IdsMatchIndex`, `IdsNewestFirst` and `TiesInListingOrder`. |
| SettingsIds.OfferedIff | src/index.js:172-184 | An id is offered exactly when a listed file of the category carries it and it is not excluded. The program's prompts call it with no exclusions stored yet, so there every id found is offered. |
| SettingsIds.IdsMatchIndex | src/index.js:175-181 | The ids offered for a category are exactly the ids `index` stores for it, given the same listing and exclusions. In the program the prompts call `getSettingsIds` before the exclusions are stored (src/index.js:256-261), so there its exclusions are always empty, and the premise holds in a run only when the operator excludes nothing. |
| SettingsIds.IdsNewestFirst | src/index.js:178-181 | The i-th offered id belongs to the i-th file in newest-first order. The first id, the prompt's default, belongs to a most recently modified file. |
| SettingsIds.GetSettingsIds | src/index.js:175 | Listing the ids fails exactly when the tree has no node at the directory's path. |
| Driver.RunWith | src/index.js:262-266 | The run uses the backup directory for its clock reading. A listing failure is never its outcome, because the backup already failed on a missing source. |
| Driver.Run | src/index.js:262-266 | The same two facts for the run with the program's classifier. |
| Driver.BackupStep | src/index.js:262 | For a readable non-root source directory, the backup succeeds, adds its files and leaves every source file as it was. No source file is a backup file. |
| Driver.MissingSourceStopsAtBackup | src/index.js:262 | A source path at which the tree has no node fails the run at the backup, before indexing, and no file has changed. |
| Driver.UnknownUserStopsAfterBackup | src/index.js:262-265 | For a readable non-root source directory (`Driver.Ready`): a source user id that was not indexed ends the run with the not-found error right after the backup. No settings file has been overwritten. |
| Driver.RunClones | src/index.js:262-266 | For a readable non-root source directory (`Driver.Ready`) with both source ids indexed, the run succeeds. At the end every indexed user file holds the source user's original bytes, and every indexed character file holds the source character's. The backup holds the original bytes, and every other file is unchanged. |
| Driver.SequentialDupes | src/index.js:265-266 | The character fan-out does not undo the user fan-out, because no path is in both categories. |
| Driver.CategoriesApart | src/index.js:42-49 | No path is indexed both as a user file and as a character file. |

## Left out

- The interactive prompt, the saved configuration and the command-line layer (`getUserOptions`, `getConfigOptions`, `saveConfigOptions`, `getCliOptions`, `anykey`). They only supply the options record `Driver.Options`.
- Settings-directory discovery (`getUserPaths`, `findEvePaths`, `findEveSettingsPaths`). It probes well-known install locations on the real filesystem.
- The memo cache of `getSettingsIds`. `SettingsIds.GetSettingsIds` is the computation the cache stores.
- Logging and the `verbose` flag: they have no effect on files.
- `Date.now()`: the clock reading is the parameter `ts`.
- File modification times: the parameter `mtime`, with integer values rather than floating-point milliseconds.
- Byte-level I/O: file contents are whole values in a map. The helpers `ensureRecursiveSync` and `copyFileSync` are not part of this model; their effect is the one `CopyRecursive.Apply` assumes.
- Path normalisation (`path.resolve`, `path.join`, relative paths, `..`, repeated `/`): every path is already resolved to segments. For a top-level source the backup template begins with `//`, which the model treats as the same directory.
- FileLister.FileListingAt: a path is looked up segment by segment in the tree, and a non-directory before the last segment ends the lookup. The real `lstat` follows a symbolic link in any segment but the last, so a source such as `/l/s` with `/l` a link to a directory is found by the program and not by the model. The model also has no permission failures (`EACCES` on `readdir` or `lstat`). It assumes that no segment before the last of the source path is a symbolic link and that every directory is readable.
- CopyRecursive.CopyRecursiveSync: the same assumptions: no symbolic link before the last segment of the source path, and no permission failures. The error `ensureRecursiveSync` raises when a non-directory already sits at the target path is not modelled either: ensuring the target never fails.
- SettingsIds.GetSettingsIds: the same assumptions for the directory it lists.
- Driver.UnknownUserStopsAfterBackup: stated for a readable non-root source directory (`Driver.Ready`) only. When a listed source file cannot be read, the backup fails first and the run ends with that backup error, not the not-found error; `Driver.RunWith` still gives that outcome, but this lemma does not describe it.
- Driver.MissingSourceStopsAtBackup: a "missing" source is one the tree has no node for, under the same assumptions.
- Windows path rendering. The program targets Windows installations too, where `path.resolve` prints a drive prefix and `\` separators, and the backup template then mixes `\` and `/`. The model renders paths the POSIX way; on Windows only the separator and the drive prefix differ. The classifier's answers do not change, because the only separator a match can contain is the one the `.` takes, and `.` matches `\` as well as `/`.
- Backup.TemplateIsBackupPath: the equality with the path's text holds for POSIX rendering only, for the reason above.
- The filesystem tree is not updated by the writes the run makes. For a non-root source this is exact, because the backup is a sibling of the source. When the source is the filesystem root, the real listing taken after the backup would also include the backup directory.
- Driver.RunClones: stated for a non-root source directory whose listed files all have contents (`Driver.Ready`). The root as source is excluded for the reason above. A non-directory source is excluded because the program then backs up nothing and indexes only that one path.
- Cloner.Dupe: the only copy failure modelled is an unreadable source file, which fails the first copy. A copy that fails part-way for another reason (permissions, a full disk) would leave some targets written; that is not modelled.
- Cloner.Dupe: symbolic links and hard links are modelled as independent files. `fs.copyFileSync` writes through a link to the file it names, so when a target is a link to another file, the program also changes that file. The model says that file keeps its bytes.
- Driver.RunClones: for the same reason, writes through links to files outside the two categories are not modelled. The frame clause holds only when no indexed target is a link.
- Cloner.Dupe: ids that name properties inherited by every JavaScript object (`constructor`, `__proto__`) are looked up as absent. The program would find the inherited property instead.
- Cloner.NotFoundNamesSettingsFile: states only the end of the message, the quoted file name and what follows it. The full wording is the definition `Cloner.NotFoundMessage`.
- File names holding unpaired UTF-16 surrogates. A Dafny `char` is a Unicode scalar value, so such names cannot be written. Every other name is represented, with a character outside the Basic Multilingual Plane counted as the two code units the pattern sees (`SettingsFile.IsSingleUnit`).
- The process exit on an uncaught error: a failed step is the `error` of `Driver.Outcome`, and nothing after it runs.

=== FILE: backup.dfy ===
/**
 The backup step (`backup`): the source directory is copied, flattened, into
 a sibling directory named after it with `_backup` and the clock reading in
 milliseconds appended. The clock reading is a parameter.
 */
module Backup {
  import opened Base
  import opened FileTree
  import opened FileLister
  import opened CopyRecursive

  /** The suffix appended to the source's base name. */
  function Suffix(ts: nat): (s: string)
    ensures |s| > 7 && s[..7] == "_backup"
  {
    "_backup" + Decimal(ts)
  }

  /**
   The backup directory for the resolved source `src` at time `ts`. For
   the filesystem root (empty dirname and base name) this is a directory
   directly below the root, which is inside the source.
   */
  function BackupPath(src: Path, ts: nat): (b: Path)
    ensures |b| > 0 && Dirname(b) == Dirname(src)
    ensures Basename(b) == Basename(src) + Suffix(ts)
  {
    Dirname(src) + [Basename(src) + Suffix(ts)]
  }

  /** The template string the program builds: `${dirname}/${basename}_backup${ts}`. */
  function BackupTemplate(src: Path, ts: nat): string {
    PathString(Dirname(src)) + "/" + Basename(src) + Suffix(ts)
  }

  /**
   Below the top level the template is exactly the textual path of
   `BackupPath`. At the top level the dirname is `/` and the template
   starts with `//`, which names the same directory.
   */
  lemma TemplateIsBackupPath(src: Path, ts: nat)
    ensures |src| >= 2 ==> BackupTemplate(src, ts) == PathString(BackupPath(src, ts))
    ensures |src| <= 1 ==> BackupTemplate(src, ts)[..2] == "//"
  {
    var b := BackupPath(src, ts);
    var dir := Dirname(src);
    var name := Basename(src) + Suffix(ts);
    assert BackupTemplate(src, ts) == PathString(dir) + "/" + name;
    if |src| >= 2 {
      PathStringSnoc(dir, name);
    } else {
      assert PathString(dir) == "/";
    }
  }

  /**
   The backup of a non-root source is a sibling: neither lies inside the
   other, so the copy never reads what it writes.
   */
  lemma BackupIsSibling(src: Path, ts: nat)
    requires |src| > 0
    ensures !IsPrefix(src, BackupPath(src, ts)) && !IsPrefix(BackupPath(src, ts), src)
  {
    var b := BackupPath(src, ts);
    assert |b| == |src|;
    assert b[|b| - 1] != src[|src| - 1] by {
      assert |b[|b| - 1]| > |src[|src| - 1]|;
    }
  }

  /** Backups taken at different times go to different directories. */
  lemma BackupPathInjective(src: Path, ts1: nat, ts2: nat)
    requires BackupPath(src, ts1) == BackupPath(src, ts2)
    ensures ts1 == ts2
  {
    var base := Basename(src);
    var n1 := base + Suffix(ts1);
    var n2 := base + Suffix(ts2);
    assert n1 == n2;
    assert Suffix(ts1) == n1[|base|..];
    assert Suffix(ts2) == n2[|base|..];
    SuffixInjective(ts1, ts2);
  }

  lemma SuffixInjective(ts1: nat, ts2: nat)
    requires Suffix(ts1) == Suffix(ts2)
    ensures ts1 == ts2
  {
    var d1 := Decimal(ts1);
    var d2 := Decimal(ts2);
    assert d1 == Suffix(ts1)[7..];
    assert d2 == Suffix(ts2)[7..];
  }

  /**
   Every file of a non-root source directory lies outside the backup
   directory, so the backup copy can read all of them.
   */
  lemma {:induction false} SourceFilesOutsideBackup(src: Path, n: Node, ts: nat, c: Contents)
    requires |src| > 0 && n.Dir?
    requires forall q :: q in FileListing(src, n) ==> q in c
    ensures Readable(src, n, BackupPath(src, ts), c)
  {
    var b := BackupPath(src, ts);
    var fl := FileListing(src, n);
    ListingUnderRoot(src, n);
    BackupIsSibling(src, ts);
    forall i | 0 <= i < |fl|
      ensures Dirname(fl[i]) != b
    {
      var q := fl[i];
      assert IsPrefix(src, Dirname(q)) by {
        assert Dirname(q)[..|src|] == q[..|src|];
      }
    }
  }
}

=== FILE: base.dfy ===
/**
 Shared vocabulary of the settings cloner model: failure-carrying results,
 absolute paths as sequences of segments, file contents as bytes, and the
 few string helpers (suffix test, decimal rendering) the other modules use.
 */
module Base {

  datatype Option<+T> = None | Some(value: T)

  datatype Result<+T, +E> = Success(value: T) | Failure(error: E) {
    predicate IsFailure() { Failure? }

    function PropagateFailure<U>(): Result<U, E>
      requires Failure?
    {
      Failure(error)
    }

    function Extract(): T
      requires Success?
    {
      value
    }
  }

  newtype byte = x: int | 0 <= x < 256

  /** The bytes of one file. */
  type Content = seq<byte>

  /** An absolute, resolved path: the segments below the filesystem root. */
  type Path = seq<string>

  /** The contents of every file on disk, keyed by absolute path. */
  type Contents = map<Path, Content>

  /** `a` is a prefix of `b`; for paths, `b` is `a` itself or a path below it. */
  predicate IsPrefix<T(==)>(a: seq<T>, b: seq<T>) {
    |a| <= |b| && b[..|a|] == a
  }

  /** Node's `path.dirname` on a resolved path; the root is its own parent. */
  function Dirname(p: Path): (d: Path)
    ensures |p| > 0 ==> |d| == |p| - 1 && IsPrefix(d, p)
    ensures |p| == 0 ==> d == []
  {
    if |p| == 0 then [] else p[..|p| - 1]
  }

  /** Node's `path.basename`; the root has the empty base name. */
  function Basename(p: Path): string {
    if |p| == 0 then "" else p[|p| - 1]
  }

  /** The textual form of a resolved path, as `path.resolve` prints it. */
  function PathString(p: Path): (s: string)
    ensures |s| > 0 && s[0] == '/'
  {
    if |p| == 0 then "/" else Segments(p)
  }

  /** "/" + p[0] + "/" + p[1] + ... */
  function Segments(p: Path): (s: string)
    ensures |p| > 0 ==> |s| > 0 && s[0] == '/'
  {
    if |p| == 0 then "" else Segments(p[..|p| - 1]) + "/" + p[|p| - 1]
  }

  /** Appending a segment to a non-root path appends "/" and the segment to its text. */
  lemma PathStringSnoc(dir: Path, name: string)
    requires |dir| > 0
    ensures PathString(dir + [name]) == PathString(dir) + "/" + name
  {
    assert (dir + [name])[..|dir|] == dir;
  }

  /**
   A name a directory entry can have: not empty, not `.` or `..`, and without
   the separator `/`.
   */
  predicate ValidName(name: string) {
    name != "" && name != "." && name != ".." && '/' !in name
  }

  /** Every segment of `p` is a valid entry name. */
  predicate ValidPath(p: Path) {
    forall i :: 0 <= i < |p| ==> ValidName(p[i])
  }

  /**
   On paths made of valid names the text determines the path, so comparing
   two paths is comparing their strings.
   */
  lemma PathStringInjective(a: Path, b: Path)
    requires ValidPath(a) && ValidPath(b) && PathString(a) == PathString(b)
    ensures a == b
  {
    if |a| == 0 && |b| > 0 {
      SegmentsLength(b);
    } else if |a| > 0 && |b| == 0 {
      SegmentsLength(a);
    } else if |a| > 0 {
      SegmentsInjective(a, b);
    }
  }

  /** A non-root path of valid names renders to at least two characters. */
  lemma SegmentsLength(p: Path)
    requires |p| > 0 && ValidPath(p)
    ensures |Segments(p)| >= 2
  {
    assert |p[|p| - 1]| > 0;
  }

  lemma {:induction false} SegmentsInjective(a: Path, b: Path)
    requires ValidPath(a) && ValidPath(b) && Segments(a) == Segments(b)
    ensures a == b
    decreases |a|
  {
    if |a| == 0 {
      if |b| > 0 {
        SegmentsLength(b);
      }
    } else if |b| == 0 {
      SegmentsLength(a);
    } else {
      var a', b' := a[..|a| - 1], b[..|b| - 1];
      var x, y := a[|a| - 1], b[|b| - 1];
      LastSegmentUnique(Segments(a'), x, Segments(b'), y);
      SegmentsInjective(a', b');
      assert a == a' + [x] && b == b' + [y];
    }
  }

  /** The text after the last separator is the last segment, and the text before it the rest. */
  lemma LastSegmentUnique(t1: string, x: string, t2: string, y: string)
    requires t1 + "/" + x == t2 + "/" + y && '/' !in x && '/' !in y
    ensures x == y && t1 == t2
  {
    var s := t1 + "/" + x;
    // The separator before the shorter last segment cannot lie inside the other one.
    var m := if |x| <= |y| then |x| else |y|;
    assert s[|s| - m - 1] == '/';
    assert x == s[|s| - |x|..] == y;
    assert t1 == s[..|s| - |x| - 1] == t2;
  }

  /** No element occurs twice. */
  predicate Distinct<T(==)>(s: seq<T>) {
    forall i, j :: 0 <= i < j < |s| ==> s[i] != s[j]
  }

  /** Two duplicate-free sequences with no common element concatenate to a duplicate-free one. */
  lemma DistinctConcat<T>(a: seq<T>, b: seq<T>)
    requires Distinct(a) && Distinct(b)
    requires forall x, y :: x in a && y in b ==> x != y
    ensures Distinct(a + b)
  {
    var s := a + b;
    forall i, j | 0 <= i < j < |s|
      ensures s[i] != s[j]
    {
      if j < |a| {
      } else if i >= |a| {
        assert s[i] == b[i - |a|] && s[j] == b[j - |a|];
      } else {
        assert s[i] in a && s[j] in b;
      }
    }
  }

  /** A filesystem access failure (`ENOENT` and the like) on a path. */
  datatype FsError = NoEntry(path: Path)

  predicate EndsWith(s: string, suffix: string) {
    |suffix| <= |s| && s[|s| - |suffix|..] == suffix
  }

  /** A common tail extends a suffix relation. */
  lemma EndsWithAppend(s: string, suffix: string, t: string)
    requires EndsWith(s, suffix)
    ensures EndsWith(s + t, suffix + t)
  {
    assert (s + t)[|s + t| - |suffix + t|..] == s[|s| - |suffix|..] + t;
  }

  predicate IsDigit(c: char) {
    '0' <= c <= '9'
  }

  predicate AllDigits(s: string) {
    forall i :: 0 <= i < |s| ==> IsDigit(s[i])
  }

  /** The decimal digit of a number below ten. */
  function DigitChar(d: nat): (c: char)
    requires d < 10
    ensures IsDigit(c)
  {
    "0123456789"[d]
  }

  /** Decimal value of a digit string (the left inverse of `Decimal`). */
  function DigitsValue(s: string): nat
    requires AllDigits(s)
  {
    if |s| == 0 then 0 else 10 * DigitsValue(s[..|s| - 1]) + (s[|s| - 1] as int - '0' as int)
  }

  /**
   JavaScript's rendering of a `Date.now()` reading in a template literal:
   plain decimal digits, which is exact below 10^21 (larger numbers are
   printed in exponent form).
   */
  function Decimal(n: nat): (s: string)
    ensures |s| > 0 && AllDigits(s)
    ensures DigitsValue(s) == n
  {
    if n < 10 then [DigitChar(n)]
    else
      var s := Decimal(n / 10) + [DigitChar(n % 10)];
      assert s[..|s| - 1] == Decimal(n / 10);
      s
  }
}

=== FILE: cloner.dfy ===
/**
 The fan-out (`dupe`): the indexed settings file of the chosen source id is
 copied over every other indexed settings file of the same category. A
 source id that was not indexed is an error that names the file the
 operator should look for; a source file that cannot be read fails the
 first copy, before anything is written.
 */
module Cloner {
  import opened Base
  import opened SettingsFile

  datatype CloneError =
    | NotFound(category: Category, id: string)
    | Io(cause: FsError)

  /** The text of the error thrown for an id missing from the index. */
  function NotFoundMessage(cat: Category, id: string): string {
    "Source " + cat.Name() + " id (" + id + ") cannot be found. Please ensure the \""
    + FileName(cat, id) + "\" file exists in the source directory."
  }

  /**
   The file the message asks for is one the classifier recognises as the
   missing id's settings file, wherever it is placed.
   */
  lemma NotFoundNamesSettingsFile(cat: Category, id: string, dir: string)
    requires |id| > 0 && AllDigits(id)
    ensures var msg := NotFoundMessage(cat, id);
      var tail := "\" file exists in the source directory.";
      EndsWith(msg, tail) && EndsWith(msg[..|msg| - |tail|], FileName(cat, id))
    ensures Classify(dir + FileName(cat, id)) == Some(Setting(cat, id))
  {
    var msg := NotFoundMessage(cat, id);
    var pre := "Source " + cat.Name() + " id (" + id + ") cannot be found. Please ensure the \"";
    var tail := "\" file exists in the source directory.";
    assert msg == pre + FileName(cat, id) + tail;
    assert msg[..|msg| - |tail|] == pre + FileName(cat, id);
    ClassifyFileName(dir, cat, id);
  }

  /** The paths the fan-out writes: every indexed path other than the source's. */
  function Targets(m: map<string, Path>, src: Path): (ts: set<Path>)
    ensures forall t :: t in ts <==> t != src && exists id :: id in m && m[id] == t
  {
    set id | id in m && m[id] != src :: m[id]
  }

  /** `c` with the bytes of `src` written to every path of `ts`. */
  function Fanout(c: Contents, src: Path, ts: set<Path>): (r: Contents)
    requires ts == {} || src in c
  {
    map d | d in c.Keys + ts :: if d in ts then c[src] else c[d]
  }

  /**
   `dupe(cat, srcId)` on the category's index `m` and the contents `c`.
   Every copy reads the source file, so an unreadable source fails as
   soon as there is one target, and nothing has been written by then.
   */
  function Dupe(m: map<string, Path>, cat: Category, srcId: string, c: Contents): (r: Result<Contents, CloneError>)
    ensures srcId !in m <==> r == Failure(NotFound(cat, srcId))
    ensures srcId in m ==> (r.Failure? <==> Targets(m, m[srcId]) != {} && m[srcId] !in c)
    ensures r.Failure? && srcId in m ==> r.error == Io(NoEntry(m[srcId]))
    ensures r.Success? ==> r.value.Keys == c.Keys + Targets(m, m[srcId])
    ensures r.Success? ==> forall id :: id in m && m[id] != m[srcId] ==>
      m[id] in r.value && r.value[m[id]] == c[m[srcId]]
    ensures r.Success? ==> forall d :: d in c && d !in Targets(m, m[srcId]) ==> r.value[d] == c[d]
  {
    if srcId !in m then Failure(NotFound(cat, srcId))
    else
      var src := m[srcId];
      var ts := Targets(m, src);
      if ts != {} && src !in c then Failure(Io(NoEntry(src)))
      else
        Success(Fanout(c, src, ts))
  }

  /**
   The copies as the program makes them: one `copyFileSync` per key of the
   index, skipping the source's own path, in whatever order the keys are
   enumerated. Whatever that order, the outcome is `Dupe`'s.
   */
  method DupeSequential(m: map<string, Path>, cat: Category, srcId: string, c: Contents)
    returns (r: Result<Contents, CloneError>)
    ensures r == Dupe(m, cat, srcId, c)
  {
    if srcId !in m {
      return Failure(NotFound(cat, srcId));
    }
    var src := m[srcId];
    var keys := m.Keys;
    var cur := c;
    ghost var done: set<Path> := {};
    while keys != {}
      invariant keys <= m.Keys
      invariant done == (set id | id in m.Keys - keys && m[id] != src :: m[id])
      invariant done == {} || src in c
      invariant cur == Fanout(c, src, done)
      decreases keys
    {
      var k :| k in keys;
      var t := m[k];
      if t != src {
        if src !in cur {
          assert src !in c;
          assert t in Targets(m, src);
          return Failure(Io(NoEntry(src)));
        }
        assert cur[src] == c[src];
        cur := cur[t := cur[src]];
        done := done + {t};
      }
      keys := keys - {k};
      assert done == (set id | id in m.Keys - keys && m[id] != src :: m[id]);
    }
    assert m.Keys - keys == m.Keys;
    assert done == Targets(m, src);
    return Success(cur);
  }

  /** Cloning again from the same source changes nothing more. */
  lemma DupeTwice(m: map<string, Path>, cat: Category, srcId: string, c: Contents)
    requires Dupe(m, cat, srcId, c).Success?
    ensures Dupe(m, cat, srcId, Dupe(m, cat, srcId, c).value) == Dupe(m, cat, srcId, c)
  {
    var src := m[srcId];
    var ts := Targets(m, src);
    var once := Dupe(m, cat, srcId, c).value;
    if ts != {} {
      assert src in once && once[src] == c[src];
    }
    var twice := Dupe(m, cat, srcId, once).value;
    assert twice.Keys == once.Keys;
    forall d | d in once
      ensures twice[d] == once[d]
    {
    }
    assert twice == once;
  }

  /**
   Two users in one directory, whose files hold "A" and "B": cloning from
   user 1 gives user 2's file the bytes "A" and leaves user 1's file as it was.
   */
  lemma TwoUsersScenario()
    ensures var p1: Path := ["a", "core_user_1.dat"];
      var p2: Path := ["a", "core_user_2.dat"];
      var m := map["1" := p1, "2" := p2];
      var c: Contents := map[p1 := ['A' as byte], p2 := ['B' as byte]];
      Dupe(m, User, "1", c) == Success(map[p1 := ['A' as byte], p2 := ['A' as byte]])
  {
    var p1: Path := ["a", "core_user_1.dat"];
    var p2: Path := ["a", "core_user_2.dat"];
    var m := map["1" := p1, "2" := p2];
    var c: Contents := map[p1 := ['A' as byte], p2 := ['B' as byte]];
    assert p1 != p2 by {
      assert p1[1][10] != p2[1][10];
    }
    assert p2 in Targets(m, p1) by {
      assert m["2"] == p2;
    }
    forall t | t in Targets(m, p1)
      ensures t == p2
    {
      var id :| id in m && m[id] == t;
      assert id == "1" || id == "2";
    }
    assert Targets(m, p1) == {p2};
    var r := Dupe(m, User, "1", c).value;
    assert r.Keys == {p1, p2};
    assert r[p1] == ['A' as byte] && r[p2] == ['A' as byte];
    assert r == map[p1 := ['A' as byte], p2 := ['A' as byte]];
  }
}

=== FILE: copy_recursive.dfy ===
/**
 The flattening recursive copy (`copyRecursiveSync`). The two helpers it calls,
 `ensureRecursiveSync` and `copyFileSync`, are not part of this model; the copy
 is described by the sequence of calls it makes to them (a trace of `Op`s),
 and `Apply` gives those calls their assumed effect on file contents:
 ensuring a directory leaves every file alone, and copying a file into a
 directory writes its bytes under its base name there, replacing any file of
 that name.
 */
module CopyRecursive {
  import opened Base
  import opened FileTree
  import opened FileLister

  /** One call of the copy to a helper. */
  datatype Op = Ensure(dir: Path) | CopyFile(from: Path, into: Path)

  /** Where `copyFileSync(from, into)` puts the copy: the same base name inside `into`. */
  function Destination(from: Path, into: Path): (d: Path)
    ensures Dirname(d) == into && Basename(d) == Basename(from)
  {
    into + [Basename(from)]
  }

  /**
   The calls made by the copy of the node `n` found at `p` into `t`: every
   invocation first ensures `t`; entries are visited in `readdir` order,
   sub-directories recursing with the same target and leaves copied into it.
   */
  function CopyPlan(p: Path, n: Node, t: Path): seq<Op>
    decreases n
  {
    [Ensure(t)] +
    match n
    case Leaf => []
    case Dir(es) => EntriesPlan(p, es, t)
  }

  function EntriesPlan(p: Path, es: seq<Entry>, t: Path): seq<Op>
    decreases es
  {
    if |es| == 0 then []
    else
      var c := p + [es[0].name];
      (if es[0].node.Dir? then CopyPlan(c, es[0].node, t) else [CopyFile(c, t)])
      + EntriesPlan(p, es[1..], t)
  }

  /** The calls made by one run, and the `lstat` failure that ends it, if any. */
  datatype Trace = Trace(ops: seq<Op>, error: Option<FsError>)

  /**
   `copyRecursiveSync(source, target)` on the filesystem `root`. The target is
   ensured before the source is examined, so a missing source fails only after
   that first call.
   */
  function CopyRecursiveSync(root: Node, source: Path, target: Path): (r: Trace)
    ensures |r.ops| > 0 && r.ops[0] == Ensure(target)
    ensures r.error.Some? <==> Lookup(root, source).None?
    ensures r.error.Some? ==> r.ops == [Ensure(target)] && r.error == Some(NoEntry(source))
  {
    match Lookup(root, source)
    case None => Trace([Ensure(target)], Some(NoEntry(source)))
    case Some(n) => Trace(CopyPlan(source, n, target), None)
  }

  /** The files read by the copy calls of a trace, in call order. */
  function Sources(ops: seq<Op>): seq<Path> {
    if |ops| == 0 then []
    else (if ops[0].CopyFile? then [ops[0].from] else []) + Sources(ops[1..])
  }

  lemma {:induction false} SourcesConcat(a: seq<Op>, b: seq<Op>)
    ensures Sources(a + b) == Sources(a) + Sources(b)
    decreases |a|
  {
    if |a| == 0 {
      assert a + b == b;
    } else {
      assert (a + b)[1..] == a[1..] + b;
      SourcesConcat(a[1..], b);
    }
  }

  /** Every call of the trace is aimed at `t`: the copy flattens into one directory. */
  predicate AllInto(ops: seq<Op>, t: Path) {
    forall i :: 0 <= i < |ops| ==> ops[i] == Ensure(t) || (ops[i].CopyFile? && ops[i].into == t)
  }

  /**
   The shape of the copy: it starts by ensuring the target, every call
   goes to the target, and for a directory source the files copied are
   exactly the file listing of the source, in listing order; a
   non-directory source copies nothing.
   */
  lemma {:induction false} CopyPlanShape(p: Path, n: Node, t: Path)
    ensures CopyPlan(p, n, t)[0] == Ensure(t)
    ensures AllInto(CopyPlan(p, n, t), t)
    ensures Sources(CopyPlan(p, n, t)) == if n.Dir? then FileListing(p, n) else []
    decreases n
  {
    match n
    case Leaf =>
    case Dir(es) =>
      EntriesPlanShape(p, es, t);
      SourcesConcat([Ensure(t)], EntriesPlan(p, es, t));
  }

  lemma {:induction false} EntriesPlanShape(p: Path, es: seq<Entry>, t: Path)
    ensures AllInto(EntriesPlan(p, es, t), t)
    ensures Sources(EntriesPlan(p, es, t)) == EntriesListing(p, es)
    decreases es
  {
    if |es| > 0 {
      var c := p + [es[0].name];
      var head := if es[0].node.Dir? then CopyPlan(c, es[0].node, t) else [CopyFile(c, t)];
      if es[0].node.Dir? {
        CopyPlanShape(c, es[0].node, t);
      } else {
        assert Sources(head) == [c] by {
          assert head[1..] == [];
        }
      }
      EntriesPlanShape(p, es[1..], t);
      SourcesConcat(head, EntriesPlan(p, es[1..], t));
    }
  }

  /** The outcome of a sequence of calls: the contents reached, and the failure that stopped it. */
  datatype Effect = Effect(contents: Contents, error: Option<FsError>)

  /**
   Performs the calls in order. A copy whose source file has no contents
   fails with `ENOENT` and stops the run; the writes made before it remain.
   */
  function Apply(ops: seq<Op>, c: Contents): Effect
    decreases |ops|
  {
    if |ops| == 0 then Effect(c, None)
    else
      match ops[0]
      case Ensure(_) => Apply(ops[1..], c)
      case CopyFile(f, d) =>
        if f !in c then Effect(c, Some(NoEntry(f)))
        else Apply(ops[1..], c[Destination(f, d) := c[f]])
  }

  /** A whole run: the calls, then the failure that ended them, if any. */
  function ApplyTrace(tr: Trace, c: Contents): Effect {
    var e := Apply(tr.ops, c);
    if e.error.None? then Effect(e.contents, tr.error) else e
  }

  /** The files written by copying each of `s` into `t`, a later copy replacing an earlier one of the same base name. */
  function Collected(s: seq<Path>, t: Path, c: Contents): (w: map<Path, Content>)
    requires forall i :: 0 <= i < |s| ==> s[i] in c
    ensures forall d :: d in w ==> Dirname(d) == t
  {
    if |s| == 0 then map[]
    else map[Destination(s[0], t) := c[s[0]]] + Collected(s[1..], t, c)
  }

  /** What a flat copy writes depends only on the contents of the files it reads. */
  lemma {:induction false} CollectedFrame(s: seq<Path>, t: Path, c1: Contents, c2: Contents)
    requires forall i :: 0 <= i < |s| ==> s[i] in c1 && s[i] in c2 && c1[s[i]] == c2[s[i]]
    ensures Collected(s, t, c1) == Collected(s, t, c2)
    decreases |s|
  {
    if |s| > 0 {
      CollectedFrame(s[1..], t, c1, c2);
    }
  }

  /** The copied files are exactly the base names of the sources, placed in `t`. */
  lemma {:induction false} CollectedKeys(s: seq<Path>, t: Path, c: Contents, d: Path)
    requires forall i :: 0 <= i < |s| ==> s[i] in c
    ensures d in Collected(s, t, c) <==> exists j :: 0 <= j < |s| && d == Destination(s[j], t)
    decreases |s|
  {
    if |s| > 0 {
      CollectedKeys(s[1..], t, c, d);
      if exists j :: 0 <= j < |s[1..]| && d == Destination(s[1..][j], t) {
        var j :| 0 <= j < |s[1..]| && d == Destination(s[1..][j], t);
        assert s[1..][j] == s[j + 1];
      }
      if exists j :: 0 <= j < |s| && d == Destination(s[j], t) {
        var j :| 0 <= j < |s| && d == Destination(s[j], t);
        if j > 0 {
          assert s[1..][j - 1] == s[j];
        }
      }
    }
  }

  /** On a base-name collision the file copied last wins. */
  lemma {:induction false} CollectedLastWins(s: seq<Path>, t: Path, c: Contents, j: nat)
    requires forall i :: 0 <= i < |s| ==> s[i] in c
    requires j < |s|
    requires forall k :: j < k < |s| ==> Basename(s[k]) != Basename(s[j])
    ensures Destination(s[j], t) in Collected(s, t, c)
    ensures Collected(s, t, c)[Destination(s[j], t)] == c[s[j]]
    decreases |s|
  {
    if j > 0 {
      assert s[1..][j - 1] == s[j];
      forall k | j - 1 < k < |s[1..]|
        ensures Basename(s[1..][k]) != Basename(s[1..][j - 1])
      {
        assert s[1..][k] == s[k + 1];
      }
      CollectedLastWins(s[1..], t, c, j - 1);
    } else {
      var d := Destination(s[0], t);
      if d in Collected(s[1..], t, c) {
        CollectedKeys(s[1..], t, c, d);
        assert false;
      }
    }
  }

  /** The precondition of `ApplyFlat`: all calls go to `t`, every file read has contents and lies outside `t`. */
  predicate FlatAndReadable(ops: seq<Op>, t: Path, c: Contents) {
    && AllInto(ops, t)
    && forall i :: 0 <= i < |Sources(ops)| ==> Sources(ops)[i] in c && Dirname(Sources(ops)[i]) != t
  }

  lemma AllIntoTail(ops: seq<Op>, t: Path)
    requires |ops| > 0 && AllInto(ops, t)
    ensures AllInto(ops[1..], t)
  {
    var rest := ops[1..];
    forall i | 0 <= i < |rest|
      ensures rest[i] == Ensure(t) || (rest[i].CopyFile? && rest[i].into == t)
    {
      assert rest[i] == ops[i + 1];
    }
  }

  /** A flat run whose sources all exist and none lies in `t` writes exactly `Collected`. */
  lemma {:induction false} ApplyFlat(ops: seq<Op>, t: Path, c: Contents)
    requires FlatAndReadable(ops, t, c)
    ensures Apply(ops, c) == Effect(c + Collected(Sources(ops), t, c), None)
    decreases |ops|, 1
  {
    if |ops| == 0 {
      assert c + map[] == c;
    } else if ops[0].Ensure? {
      AllIntoTail(ops, t);
      assert Sources(ops) == Sources(ops[1..]);
      ApplyFlat(ops[1..], t, c);
    } else {
      ApplyFlatCopy(ops, t, c);
    }
  }

  lemma {:induction false} ApplyFlatCopy(ops: seq<Op>, t: Path, c: Contents)
    requires FlatAndReadable(ops, t, c) && |ops| > 0 && ops[0].CopyFile?
    ensures Apply(ops, c) == Effect(c + Collected(Sources(ops), t, c), None)
    decreases |ops|, 0
  {
    var rest := Sources(ops[1..]);
    AllIntoTail(ops, t);
    var f := ops[0].from;
    assert Sources(ops) == [f] + rest;
    assert Sources(ops)[0] == f;
    var d := Destination(f, t);
    var c1 := c[d := c[f]];
    assert Apply(ops, c) == Apply(ops[1..], c1);
    forall i | 0 <= i < |rest|
      ensures rest[i] in c && rest[i] in c1 && Dirname(rest[i]) != t && rest[i] != d
    {
      assert rest[i] == Sources(ops)[i + 1];
    }
    ApplyFlat(ops[1..], t, c1);
    CollectedFrame(rest, t, c1, c);
    UpdateThenUnion(c, d, c[f], Collected(rest, t, c));
  }

  lemma UpdateThenUnion(c: Contents, d: Path, v: Content, w: map<Path, Content>)
    ensures c[d := v] + w == c + (map[d := v] + w)
  {
  }

  /** No file of the listing lies directly in `t`, and every one of them has contents. */
  predicate Readable(p: Path, n: Node, t: Path, c: Contents) {
    forall i :: 0 <= i < |FileListing(p, n)| ==>
      FileListing(p, n)[i] in c && Dirname(FileListing(p, n)[i]) != t
  }

  /**
   The effect of the copy: a non-directory source leaves the contents
   as they were; a directory source adds, for each base name among its
   files, the bytes of the last file of that name in listing order, all
   inside the target.
   */
  lemma CopyEffect(p: Path, n: Node, t: Path, c: Contents)
    requires Readable(p, n, t, c)
    ensures n.Leaf? ==> Apply(CopyPlan(p, n, t), c) == Effect(c, None)
    ensures n.Dir? ==> Apply(CopyPlan(p, n, t), c) == Effect(c + Collected(FileListing(p, n), t, c), None)
  {
    CopyPlanShape(p, n, t);
    if n.Dir? {
      assert FlatAndReadable(CopyPlan(p, n, t), t, c);
      ApplyFlat(CopyPlan(p, n, t), t, c);
    } else {
      assert CopyPlan(p, n, t) == [Ensure(t)];
    }
  }

  /** Running the copy a second time changes nothing: the flattened target is stable. */
  lemma CopyTwice(p: Path, n: Node, t: Path, c: Contents)
    requires Readable(p, n, t, c)
    ensures Apply(CopyPlan(p, n, t), c).error.None?
    ensures Apply(CopyPlan(p, n, t), Apply(CopyPlan(p, n, t), c).contents) == Apply(CopyPlan(p, n, t), c)
  {
    CopyEffect(p, n, t, c);
    var once := Apply(CopyPlan(p, n, t), c).contents;
    if n.Dir? {
      var fl := FileListing(p, n);
      var w := Collected(fl, t, c);
      forall i | 0 <= i < |fl|
        ensures fl[i] in once && once[fl[i]] == c[fl[i]]
      {
        assert fl[i] !in w;
      }
      CopyEffect(p, n, t, once);
      CollectedFrame(fl, t, once, c);
      assert once + w == once;
    }
  }
}

=== FILE: dedup.dfy ===
/**
 The `[...new Set(xs)]` idiom: drop repeated elements, keeping the first
 occurrence of each, in first-occurrence order (a JavaScript `Set` iterates in
 insertion order).
 */
module InsertionSet {
  import opened Base

  /** The index of the first occurrence of `x` in `s`. */
  function FirstIndex<T(==,!new)>(s: seq<T>, x: T): (i: nat)
    requires x in s
    ensures i < |s| && s[i] == x
    ensures forall k :: 0 <= k < i ==> s[k] != x
  {
    if s[0] == x then 0 else 1 + FirstIndex(s[1..], x)
  }

  /** Insert the elements of `s`, in order, into the insertion-ordered set `acc`. */
  function Extend<T(==,!new)>(acc: seq<T>, s: seq<T>): (r: seq<T>)
    requires Distinct(acc)
    ensures Distinct(r)
    ensures IsPrefix(acc, r)
    ensures forall x :: x in r <==> x in acc || x in s
    ensures forall i :: |acc| <= i < |r| ==> r[i] !in acc && r[i] in s
    decreases |s|
  {
    if |s| == 0 then acc
    else
      var prev := Extend(acc, s[..|s| - 1]);
      var x := s[|s| - 1];
      assert s == s[..|s| - 1] + [x];
      if x in prev then prev else prev + [x]
  }

  /** One more element is appended exactly when it is new. */
  lemma ExtendSnoc<T(!new)>(acc: seq<T>, s: seq<T>, x: T)
    requires Distinct(acc)
    ensures Extend(acc, s + [x]) == if x in Extend(acc, s) then Extend(acc, s) else Extend(acc, s) + [x]
  {
    assert (s + [x])[..|s + [x]| - 1] == s;
  }

  /** The elements `Extend` adds come in the order of their first occurrence in `s`. */
  lemma {:induction false} ExtendOrder<T(!new)>(acc: seq<T>, s: seq<T>)
    requires Distinct(acc)
    ensures forall i, j :: |acc| <= i < j < |Extend(acc, s)| ==>
      FirstIndex(s, Extend(acc, s)[i]) < FirstIndex(s, Extend(acc, s)[j])
    decreases |s|
  {
    if |s| > 0 {
      var front := s[..|s| - 1];
      var x := s[|s| - 1];
      ExtendOrder(acc, front);
      var prev := Extend(acc, front);
      forall y | y in front
        ensures FirstIndex(s, y) == FirstIndex(front, y)
      {
        FirstIndexOfPrefix(s, |s| - 1, y);
      }
      if x !in prev {
        assert x !in front;
        assert FirstIndex(s, x) == |s| - 1;
      }
    }
  }

  /** First occurrences inside a prefix are first occurrences of the whole sequence. */
  lemma {:induction false} FirstIndexOfPrefix<T(!new)>(s: seq<T>, k: nat, y: T)
    requires k <= |s| && y in s[..k]
    ensures FirstIndex(s, y) == FirstIndex(s[..k], y)
  {
    var i := FirstIndex(s[..k], y);
    assert s[i] == s[..k][i];
  }

  /**
   The set-and-spread idiom: `s` without repetitions. The result holds every
   element of `s` once, and its order is the order of first occurrence in `s`.
   */
  function Dedup<T(==,!new)>(s: seq<T>): (r: seq<T>)
    ensures Distinct(r)
    ensures forall x :: x in r <==> x in s
    ensures forall i, j :: 0 <= i < j < |r| ==> FirstIndex(s, r[i]) < FirstIndex(s, r[j])
  {
    ExtendOrder([], s);
    Extend([], s)
  }

  /** Extending by a concatenation is extending twice. */
  lemma {:induction false} ExtendConcat<T(!new)>(acc: seq<T>, a: seq<T>, b: seq<T>)
    requires Distinct(acc)
    ensures Extend(acc, a + b) == Extend(Extend(acc, a), b)
    decreases |b|
  {
    if |b| > 0 {
      assert (a + b)[..|a + b| - 1] == a + b[..|b| - 1];
      ExtendConcat(acc, a, b[..|b| - 1]);
    } else {
      assert a + b == a;
    }
  }

  /** Pre-deduplicating a sequence does not change what it adds to a set. */
  lemma {:induction false} ExtendDedup<T(!new)>(acc: seq<T>, b: seq<T>)
    requires Distinct(acc)
    ensures Extend(acc, Dedup(b)) == Extend(acc, b)
    decreases |b|
  {
    if |b| > 0 {
      var front := b[..|b| - 1];
      var e := b[|b| - 1];
      assert b == front + [e];
      ExtendDedup(acc, front);
      var d := Dedup(front);
      ExtendSnoc([], front, e);
      ExtendSnoc(acc, front, e);
      if e !in d {
        ExtendSnoc(acc, d, e);
      }
    }
  }

  /** Deduplicating the first part beforehand does not change the deduplicated whole. */
  lemma DedupFirstPart<T(!new)>(a: seq<T>, b: seq<T>)
    ensures Dedup(Dedup(a) + b) == Dedup(a + b)
  {
    ExtendConcat([], Dedup(a), b);
    ExtendDedup([], a);
    ExtendConcat([], a, b);
  }

  /**
   Deduplicating a concatenation of deduplicated parts is deduplicating the
   plain concatenation: the shape of a directory's listing, whose children's
   listings are each deduplicated before the whole is.
   */
  lemma DedupOfDedups<T(!new)>(a: seq<T>, b: seq<T>)
    ensures Dedup(Dedup(a) + Dedup(b)) == Dedup(a + b)
  {
    DedupFirstPart(a, Dedup(b));
    ExtendConcat([], a, Dedup(b));
    ExtendDedup(Extend([], a), b);
    ExtendConcat([], a, b);
  }
}

=== FILE: dir_listing.dfy ===
/**
 The recursive directory lister (`getDirListingRecursiveSync`): the parent
 directories of the leaves below a path, each once, in order of first
 appearance. A non-directory root lists as its parent directory.
 */
module DirLister {
  import opened Base
  import opened FileTree
  import opened FileLister
  import opened InsertionSet

  /** The directory listing of the node `n` found at the resolved path `p`. */
  function DirListing(p: Path, n: Node): seq<Path>
    decreases n
  {
    match n
    case Leaf => [Dirname(p)]
    case Dir(es) => Dedup(EntriesDirListing(p, es))
  }

  /** The children's directory listings, concatenated in `readdir` order. */
  function EntriesDirListing(p: Path, es: seq<Entry>): seq<Path>
    decreases es
  {
    if |es| == 0 then []
    else DirListing(p + [es[0].name], es[0].node) + EntriesDirListing(p, es[1..])
  }

  /** The parent directory of each path, position by position. */
  function Parents(s: seq<Path>): (r: seq<Path>)
    ensures |r| == |s| && forall i :: 0 <= i < |s| ==> r[i] == Dirname(s[i])
  {
    seq(|s|, i requires 0 <= i < |s| => Dirname(s[i]))
  }

  lemma ParentsConcat(a: seq<Path>, b: seq<Path>)
    ensures Parents(a + b) == Parents(a) + Parents(b)
  {
  }

  /**
   The directory lister is the deduplicated list of the parents of the
   files the file lister returns for the same root.
   */
  lemma {:induction false} DirListingIsParentsOfFiles(p: Path, n: Node)
    ensures DirListing(p, n) == Dedup(Parents(FileListing(p, n)))
    decreases n
  {
    match n
    case Leaf =>
      assert Parents([p]) == [Dirname(p)];
      var s := [Dirname(p)];
      assert s[..|s| - 1] == [];
      assert Extend([], s[..|s| - 1]) == [];
    case Dir(es) =>
      EntriesExtend(p, es, []);
  }

  lemma {:induction false} EntriesExtend(p: Path, es: seq<Entry>, acc: seq<Path>)
    requires Distinct(acc)
    ensures Extend(acc, EntriesDirListing(p, es)) == Extend(acc, Parents(EntriesListing(p, es)))
    decreases es
  {
    if |es| > 0 {
      var c := p + [es[0].name];
      var files0 := Parents(FileListing(c, es[0].node));
      var filesRest := Parents(EntriesListing(p, es[1..]));
      ExtendConcat(acc, DirListing(c, es[0].node), EntriesDirListing(p, es[1..]));
      DirListingIsParentsOfFiles(c, es[0].node);
      ExtendDedup(acc, files0);
      var acc1 := Extend(acc, files0);
      EntriesExtend(p, es[1..], acc1);
      ExtendConcat(acc, files0, filesRest);
      ParentsConcat(FileListing(c, es[0].node), EntriesListing(p, es[1..]));
    } else {
      assert Parents([]) == [];
    }
  }

  /**
   What the directory lister returns: no directory twice, exactly the parents
   of the listed files, in the order in which those parents first occur.
   */
  lemma DirListingSpec(p: Path, n: Node)
    ensures Distinct(DirListing(p, n))
    ensures forall d :: d in DirListing(p, n) <==> d in Parents(FileListing(p, n))
    ensures forall i, j :: 0 <= i < j < |DirListing(p, n)| ==>
      FirstIndex(Parents(FileListing(p, n)), DirListing(p, n)[i])
      < FirstIndex(Parents(FileListing(p, n)), DirListing(p, n)[j])
  {
    DirListingIsParentsOfFiles(p, n);
  }

  /** `o` is a directory with at least one leaf entry. */
  predicate HasLeafEntry(o: Option<Node>) {
    o.Some? && o.value.Dir? && exists k :: 0 <= k < |o.value.entries| && o.value.entries[k].node == Leaf
  }

  /** Looking up one more segment is looking up the child of the directory found. */
  lemma {:induction false} LookupSnoc(n: Node, rel: Path, x: string)
    ensures Lookup(n, rel + [x]) ==
      (match Lookup(n, rel)
       case Some(Dir(es)) => Child(es, x)
       case _ => None)
    decreases |rel|
  {
    if |rel| == 0 {
      assert rel + [x] == [x];
      assert [x][1..] == [];
    } else {
      assert (rel + [x])[0] == rel[0];
      assert (rel + [x])[1..] == rel[1..] + [x];
      match n
      case Leaf =>
      case Dir(es) =>
        match Child(es, rel[0])
        case None =>
        case Some(c) => LookupSnoc(c, rel[1..], x);
    }
  }

  /** Every subtree of a well-formed tree is well formed. */
  lemma {:induction false} LookupWellFormed(n: Node, rel: Path)
    requires WellFormed(n) && Lookup(n, rel).Some?
    ensures WellFormed(Lookup(n, rel).value)
    decreases |rel|
  {
    if |rel| > 0 {
      var c := Child(n.entries, rel[0]).value;
      LookupWellFormed(c, rel[1..]);
    }
  }

  /** A listed directory contains a leaf of the tree directly. */
  lemma {:induction false} ListedDirHasLeaf(p: Path, n: Node, d: Path)
    requires n.Dir? && WellFormed(n) && d in DirListing(p, n)
    ensures IsPrefix(p, d) && HasLeafEntry(Lookup(n, d[|p|..]))
  {
    DirListingSpec(p, n);
    var fl := FileListing(p, n);
    var i :| 0 <= i < |fl| && Parents(fl)[i] == d;
    ListingSound(p, n, fl[i]);
    ListingUnderRoot(p, n);
    LeafParentHasLeaf(p, n, fl[i]);
  }

  /** The directory holding a leaf strictly below the root has that leaf as an entry. */
  lemma LeafParentHasLeaf(p: Path, n: Node, q: Path)
    requires IsLeafPath(p, n, q) && |q| > |p|
    ensures IsPrefix(p, Dirname(q)) && HasLeafEntry(Lookup(n, Dirname(q)[|p|..]))
  {
    var rel := q[|p|..];
    var front := rel[..|rel| - 1];
    var x := rel[|rel| - 1];
    assert rel == front + [x];
    LookupSnoc(n, front, x);
    assert Dirname(q) == p + front;
    assert Dirname(q)[|p|..] == front;
    LeafChildIsLeafEntry(Lookup(n, front), x);
  }

  /** A directory whose child of some name is a leaf has a leaf entry. */
  lemma LeafChildIsLeafEntry(o: Option<Node>, x: string)
    requires o.Some? && o.value.Dir? && Child(o.value.entries, x) == Some(Leaf)
    ensures HasLeafEntry(o)
  {
    var es := o.value.entries;
    var k :| 0 <= k < |es| && es[k].name == x && es[k].node == Leaf;
  }

  /** A directory that contains a leaf directly is listed. */
  lemma {:induction false} DirWithLeafListed(p: Path, n: Node, rel: Path)
    requires WellFormed(n) && HasLeafEntry(Lookup(n, rel))
    ensures p + rel in DirListing(p, n)
  {
    var es := Lookup(n, rel).value.entries;
    var k :| 0 <= k < |es| && es[k].node == Leaf;
    LookupWellFormed(n, rel);
    ChildAt(es, k);
    LookupSnoc(n, rel, es[k].name);
    ListingComplete(p, n, rel + [es[k].name]);
    var q := p + (rel + [es[k].name]);
    var fl := FileListing(p, n);
    var i :| 0 <= i < |fl| && fl[i] == q;
    assert Dirname(q) == p + rel;
    assert Parents(fl)[i] == p + rel;
    DirListingSpec(p, n);
  }

  /**
   For a directory root: a directory is listed exactly when it directly
   contains at least one leaf. Directories holding only directories, and
   empty directories, are not listed.
   */
  lemma {:induction false} DirListedIffHasLeaf(p: Path, n: Node, d: Path)
    requires n.Dir? && WellFormed(n)
    ensures d in DirListing(p, n) <==> IsPrefix(p, d) && HasLeafEntry(Lookup(n, d[|p|..]))
  {
    if d in DirListing(p, n) {
      ListedDirHasLeaf(p, n, d);
    }
    if IsPrefix(p, d) && HasLeafEntry(Lookup(n, d[|p|..])) {
      DirWithLeafListed(p, n, d[|p|..]);
      assert p + d[|p|..] == d;
    }
  }
}

=== FILE: driver.dfy ===
/**
 One run of the cloner once the options are settled: back up the source
 directory, index its settings files, clone the chosen user's settings
 over the other users', then the chosen character's over the other
 characters'. The first failure ends the run; what was written before it
 stays written.
 */
module Driver {
  import opened Base
  import opened FileTree
  import opened FileLister
  import opened SettingsFile
  import opened Indexer
  import opened Cloner
  import opened CopyRecursive
  import opened Backup

  /** The settled options: source directory, source ids and exclusions. */
  datatype Options = Options(src: Path, user: string, charId: string, exclusions: Exclusions)

  datatype RunError =
    | BackupFailed(backupCause: FsError)
    | ListingFailed(listingCause: FsError)
    | CloneFailed(cloneCause: CloneError)

  /** The backup directory used, the contents at the end, and the error that ended the run, if any. */
  datatype Outcome = Outcome(backup: Path, contents: Contents, error: Option<RunError>)

  /** The run with the path classifier `cls`. */
  function RunWith(cls: Classifier, root: Node, c: Contents, o: Options, ts: nat): (r: Outcome)
    ensures r.backup == BackupPath(o.src, ts)
    ensures r.error.Some? ==> !r.error.value.ListingFailed?
  {
    var b := BackupPath(o.src, ts);
    var e := ApplyTrace(CopyRecursiveSync(root, o.src, b), c);
    if e.error.Some? then Outcome(b, e.contents, Some(BackupFailed(e.error.value)))
    else
      match FileListingAt(root, o.src)
      case Failure(err) => Outcome(b, e.contents, Some(ListingFailed(err)))
      case Success(listing) =>
        var idx := Index(cls, listing, o.exclusions);
        match Dupe(idx.users, User, o.user, e.contents)
        case Failure(err) => Outcome(b, e.contents, Some(CloneFailed(err)))
        case Success(c1) =>
          match Dupe(idx.chars, Char, o.charId, c1)
          case Failure(err) => Outcome(b, c1, Some(CloneFailed(err)))
          case Success(c2) => Outcome(b, c2, None)
  }

  /** The run as the program makes it, with the settings-file pattern. */
  function Run(root: Node, c: Contents, o: Options, ts: nat): (r: Outcome)
    ensures r.backup == BackupPath(o.src, ts)
    ensures r.error.Some? ==> !r.error.value.ListingFailed?
  {
    RunWith(ClassifyPath, root, c, o, ts)
  }

  /**
   The conditions under which the run gets past the backup: the source is
   a directory other than the root and every file below it can be read.
   */
  predicate Ready(root: Node, c: Contents, o: Options) {
    && |o.src| > 0
    && Lookup(root, o.src).Some?
    && Lookup(root, o.src).value.Dir?
    && forall q :: q in FileListing(o.src, Lookup(root, o.src).value) ==> q in c
  }

  /** The files below the source, in listing order. */
  function Listing(root: Node, o: Options): seq<Path>
    requires Lookup(root, o.src).Some?
  {
    FileListing(o.src, Lookup(root, o.src).value)
  }

  /** The contents once the backup is made: each file's bytes under its base name in the backup directory. */
  function Backed(root: Node, c: Contents, o: Options, ts: nat): (r: Contents)
    requires Ready(root, c, o)
  {
    c + BackupFiles(root, c, o, ts)
  }

  /** The files the backup writes. */
  function BackupFiles(root: Node, c: Contents, o: Options, ts: nat): (w: map<Path, Content>)
    requires Ready(root, c, o)
    ensures forall d :: d in w ==> Dirname(d) == BackupPath(o.src, ts)
  {
    Collected(Listing(root, o), BackupPath(o.src, ts), c)
  }

  /** The backup leaves the source's files alone and makes its own files. */
  lemma BackupStep(root: Node, c: Contents, o: Options, ts: nat)
    requires Ready(root, c, o)
    ensures ApplyTrace(CopyRecursiveSync(root, o.src, BackupPath(o.src, ts)), c) == Effect(Backed(root, c, o, ts), None)
    ensures forall q :: q in Listing(root, o) ==> q in Backed(root, c, o, ts) && Backed(root, c, o, ts)[q] == c[q]
    ensures forall q :: q in Listing(root, o) ==> q !in BackupFiles(root, c, o, ts)
  {
    var n := Lookup(root, o.src).value;
    var b := BackupPath(o.src, ts);
    var fl := Listing(root, o);
    SourceFilesOutsideBackup(o.src, n, ts, c);
    CopyEffect(o.src, n, b, c);
    var w := Collected(fl, b, c);
    forall q | q in fl
      ensures q !in w
    {
      var i :| 0 <= i < |fl| && fl[i] == q;
    }
  }

  /**
   A missing source fails the backup before anything is indexed or
   copied; only the backup directory has been ensured, so no file changed.
   */
  lemma MissingSourceStopsAtBackup(cls: Classifier, root: Node, c: Contents, o: Options, ts: nat)
    requires Lookup(root, o.src).None?
    ensures RunWith(cls, root, c, o, ts) == Outcome(BackupPath(o.src, ts), c, Some(BackupFailed(NoEntry(o.src))))
  {
    var ops := [Ensure(BackupPath(o.src, ts))];
    assert ops[1..] == [];
    assert Apply(ops, c) == Effect(c, None);
  }

  /**
   A source user id that was not indexed (absent, or excluded) ends the run
   right after the backup: the error names the id, the backup exists, and
   no settings file was overwritten.
   */
  lemma UnknownUserStopsAfterBackup(cls: Classifier, root: Node, c: Contents, o: Options, ts: nat)
    requires Ready(root, c, o)
    requires o.user !in Index(cls, Listing(root, o), o.exclusions).users
    ensures RunWith(cls, root, c, o, ts) ==
      Outcome(BackupPath(o.src, ts), Backed(root, c, o, ts), Some(CloneFailed(NotFound(User, o.user))))
  {
    BackupStep(root, c, o, ts);
  }

  /**
   A successful run. With both source ids indexed, the run ends without
   error, and at the end: every indexed user file holds the source user's
   original bytes, every indexed character file the source character's,
   the backup holds the original bytes of the source files, and every
   other file is as it was.
   */
  lemma RunClones(cls: Classifier, root: Node, c: Contents, o: Options, ts: nat)
    requires Ready(root, c, o)
    requires o.user in Index(cls, Listing(root, o), o.exclusions).users
    requires o.charId in Index(cls, Listing(root, o), o.exclusions).chars
    ensures var r := RunWith(cls, root, c, o, ts);
      var idx := Index(cls, Listing(root, o), o.exclusions);
      var w := BackupFiles(root, c, o, ts);
      && r.error.None?
      && idx.users[o.user] in c && idx.chars[o.charId] in c
      && (forall id :: id in idx.users ==> idx.users[id] in r.contents && r.contents[idx.users[id]] == c[idx.users[o.user]])
      && (forall id :: id in idx.chars ==> idx.chars[id] in r.contents && r.contents[idx.chars[id]] == c[idx.chars[o.charId]])
      && (forall d :: d in w ==> d in r.contents && r.contents[d] == w[d])
      && (forall d :: d in c && d !in w && d !in idx.users.Values && d !in idx.chars.Values ==> d in r.contents && r.contents[d] == c[d])
  {
    var fl := Listing(root, o);
    var idx := Index(cls, fl, o.exclusions);
    var w := BackupFiles(root, c, o, ts);
    BackupStep(root, c, o, ts);
    IndexedAreListed(cls, fl, o.exclusions);
    CategoriesApart(cls, fl, o.exclusions);
    CloneOverBackup(idx.users, idx.chars, o.user, o.charId, c, w);
    RunIsTwoDupes(cls, root, c, o, ts);
  }

  /**
   The two fan-outs applied over the freshly written backup `w`, when the
   indexed paths lie outside it and the categories share no path.
   */
  lemma CloneOverBackup(us: map<string, Path>, cs: map<string, Path>, uid: string, cid: string, c: Contents, w: map<Path, Content>)
    requires uid in us && cid in cs && us[uid] in c && cs[cid] in c
    requires forall u, ch :: u in us && ch in cs ==> us[u] != cs[ch]
    requires forall id :: id in us ==> us[id] !in w
    requires forall id :: id in cs ==> cs[id] !in w
    ensures Dupe(us, User, uid, c + w).Success?
    ensures var r := Dupe(cs, Char, cid, Dupe(us, User, uid, c + w).value);
      && r.Success?
      && (forall id :: id in us ==> us[id] in r.value && r.value[us[id]] == c[us[uid]])
      && (forall id :: id in cs ==> cs[id] in r.value && r.value[cs[id]] == c[cs[cid]])
      && (forall d :: d in w ==> d in r.value && r.value[d] == w[d])
      && (forall d :: d in c && d !in w && d !in us.Values && d !in cs.Values ==> d in r.value && r.value[d] == c[d])
  {
    SequentialDupes(us, cs, uid, cid, c + w);
    forall d | d in w
      ensures d !in us.Values && d !in cs.Values
    {
    }
  }

  /** Past a successful backup and a successful user fan-out, the run is the two fan-outs applied to the backed-up contents. */
  lemma RunIsTwoDupes(cls: Classifier, root: Node, c: Contents, o: Options, ts: nat)
    requires Ready(root, c, o)
    requires Dupe(Index(cls, Listing(root, o), o.exclusions).users, User, o.user, Backed(root, c, o, ts)).Success?
    ensures var idx := Index(cls, Listing(root, o), o.exclusions);
      var c1 := Dupe(idx.users, User, o.user, Backed(root, c, o, ts)).value;
      var r2 := Dupe(idx.chars, Char, o.charId, c1);
      RunWith(cls, root, c, o, ts) == Outcome(BackupPath(o.src, ts), if r2.Success? then r2.value else c1,
                                              if r2.Success? then None else Some(CloneFailed(r2.error)))
  {
    BackupStep(root, c, o, ts);
  }

  /**
   The user fan-out followed by the character fan-out, when the two
   categories share no path: each category's files end up with its own
   source's bytes, and every other file keeps its bytes.
   */
  lemma SequentialDupes(us: map<string, Path>, cs: map<string, Path>, uid: string, cid: string, c0: Contents)
    requires uid in us && cid in cs && us[uid] in c0 && cs[cid] in c0
    requires forall u, ch :: u in us && ch in cs ==> us[u] != cs[ch]
    ensures Dupe(us, User, uid, c0).Success?
    ensures var c1 := Dupe(us, User, uid, c0).value;
      var r := Dupe(cs, Char, cid, c1);
      && r.Success?
      && (forall id :: id in us ==> us[id] in r.value && r.value[us[id]] == c0[us[uid]])
      && (forall id :: id in cs ==> cs[id] in r.value && r.value[cs[id]] == c0[cs[cid]])
      && (forall d :: d in c0 && d !in us.Values && d !in cs.Values ==> d in r.value && r.value[d] == c0[d])
  {
    var c1 := Dupe(us, User, uid, c0).value;
    assert cs[cid] !in Targets(us, us[uid]);
    var c2 := Dupe(cs, Char, cid, c1).value;
    forall id | id in us
      ensures us[id] in c2 && c2[us[id]] == c0[us[uid]]
    {
      assert us[id] !in Targets(cs, cs[cid]);
    }
    forall d | d in c0 && d !in us.Values && d !in cs.Values
      ensures d in c2 && c2[d] == c0[d]
    {
      assert d !in Targets(us, us[uid]);
      assert d !in Targets(cs, cs[cid]);
    }
  }

  /** Every path the indexer stores is a listed file. */
  lemma IndexedAreListed(cls: Classifier, listing: seq<Path>, x: Exclusions)
    ensures forall id :: id in Index(cls, listing, x).users ==> Index(cls, listing, x).users[id] in listing
    ensures forall id :: id in Index(cls, listing, x).chars ==> Index(cls, listing, x).chars[id] in listing
  {
    forall id | id in Index(cls, listing, x).users
      ensures Index(cls, listing, x).users[id] in listing
    {
      IndexValues(cls, listing, x, User, id);
    }
    forall id | id in Index(cls, listing, x).chars
      ensures Index(cls, listing, x).chars[id] in listing
    {
      IndexValues(cls, listing, x, Char, id);
    }
  }

  /** No path is indexed both as a user file and as a character file. */
  lemma CategoriesApart(cls: Classifier, listing: seq<Path>, x: Exclusions)
    ensures forall u, ch :: u in Index(cls, listing, x).users && ch in Index(cls, listing, x).chars ==>
      Index(cls, listing, x).users[u] != Index(cls, listing, x).chars[ch]
  {
    forall u, ch | u in Index(cls, listing, x).users && ch in Index(cls, listing, x).chars
      ensures Index(cls, listing, x).users[u] != Index(cls, listing, x).chars[ch]
    {
      IndexValues(cls, listing, x, User, u);
      IndexValues(cls, listing, x, Char, ch);
    }
  }
}

=== FILE: file_listing.dfy ===
/**
 The recursive file lister (`getFileListingRecursiveSync`): a depth-first,
 `readdir`-ordered list of the resolved paths of every leaf below a path.
 A non-directory root lists as itself.
 */
module FileLister {
  import opened Base
  import opened FileTree

  /** The listing of the node `n` found at the resolved path `p`. */
  function FileListing(p: Path, n: Node): seq<Path>
    decreases n
  {
    match n
    case Leaf => [p]
    case Dir(es) => EntriesListing(p, es)
  }

  /** The children's listings, concatenated in `readdir` order. */
  function EntriesListing(p: Path, es: seq<Entry>): seq<Path>
    decreases es
  {
    if |es| == 0 then []
    else FileListing(p + [es[0].name], es[0].node) + EntriesListing(p, es[1..])
  }

  /** The lister applied to a path of the filesystem `root`; `lstat` fails on a missing path. */
  function FileListingAt(root: Node, p: Path): (r: Result<seq<Path>, FsError>)
    ensures r.Failure? <==> Lookup(root, p).None?
    ensures r.Failure? ==> r.error == NoEntry(p)
  {
    match Lookup(root, p)
    case None => Failure(NoEntry(p))
    case Some(n) => Success(FileListing(p, n))
  }

  /** `q` is the path of a leaf of `n`, where `n` sits at `p`. */
  predicate IsLeafPath(p: Path, n: Node, q: Path) {
    IsPrefix(p, q) && Lookup(n, q[|p|..]) == Some(Leaf)
  }

  /** Every listed path lies below the root path; below a directory it is strictly longer. */
  lemma {:induction false} ListingUnderRoot(p: Path, n: Node)
    ensures forall q :: q in FileListing(p, n) ==> IsPrefix(p, q) && (n.Dir? ==> |q| > |p|)
    decreases n
  {
    match n
    case Leaf =>
    case Dir(es) => EntriesUnderRoot(p, es);
  }

  lemma {:induction false} EntriesUnderRoot(p: Path, es: seq<Entry>)
    ensures forall q :: q in EntriesListing(p, es) ==> IsPrefix(p, q) && |q| > |p|
    decreases es
  {
    if |es| > 0 {
      var c := p + [es[0].name];
      ListingUnderRoot(c, es[0].node);
      EntriesUnderRoot(p, es[1..]);
      forall q | q in FileListing(c, es[0].node)
        ensures IsPrefix(p, q) && |q| > |p|
      {
        assert q[..|p|] == q[..|c|][..|p|];
      }
    }
  }

  /** A path in the listing of the entries sits below one entry's path. */
  lemma {:induction false} EntriesListingMember(p: Path, es: seq<Entry>, q: Path)
    requires q in EntriesListing(p, es)
    ensures exists i :: 0 <= i < |es| && q in FileListing(p + [es[i].name], es[i].node)
    decreases es
  {
    if q !in FileListing(p + [es[0].name], es[0].node) {
      EntriesListingMember(p, es[1..], q);
      var i :| 0 <= i < |es[1..]| && q in FileListing(p + [es[1..][i].name], es[1..][i].node);
      assert es[1..][i] == es[i + 1];
    }
  }

  /** Each entry's listing is part of the listing of its directory. */
  lemma {:induction false} EntriesListingIncludes(p: Path, es: seq<Entry>, i: nat, q: Path)
    requires i < |es| && q in FileListing(p + [es[i].name], es[i].node)
    ensures q in EntriesListing(p, es)
    decreases es
  {
    if i > 0 {
      assert es[1..][i - 1] == es[i];
      EntriesListingIncludes(p, es[1..], i - 1, q);
    }
  }

  /** The listing has one path per leaf. */
  lemma {:induction false} ListingLength(p: Path, n: Node)
    ensures |FileListing(p, n)| == LeafCount(n)
    decreases n
  {
    match n
    case Leaf =>
    case Dir(es) => EntriesLength(p, es);
  }

  lemma {:induction false} EntriesLength(p: Path, es: seq<Entry>)
    ensures |EntriesListing(p, es)| == LeafCountEntries(es)
    decreases es
  {
    if |es| > 0 {
      ListingLength(p + [es[0].name], es[0].node);
      EntriesLength(p, es[1..]);
    }
  }

  /** Completeness: every leaf of the tree is listed. */
  lemma {:induction false} ListingComplete(p: Path, n: Node, rel: Path)
    requires Lookup(n, rel) == Some(Leaf)
    ensures p + rel in FileListing(p, n)
    decreases |rel|
  {
    if |rel| == 0 {
      assert p + rel == p;
    } else {
      var es := n.entries;
      var c := Child(es, rel[0]).value;
      var i :| 0 <= i < |es| && es[i].name == rel[0] && es[i].node == c;
      ListingComplete(p + [rel[0]], c, rel[1..]);
      assert p + [rel[0]] + rel[1..] == p + rel;
      EntriesListingIncludes(p, es, i, p + rel);
    }
  }

  /** Soundness: on a well-formed tree every listed path is the path of a leaf, never of a directory. */
  lemma {:induction false} ListingSound(p: Path, n: Node, q: Path)
    requires WellFormed(n) && q in FileListing(p, n)
    ensures IsLeafPath(p, n, q)
    decreases n
  {
    match n
    case Leaf =>
      assert q == p;
      assert q[|p|..] == [];
    case Dir(es) =>
      EntriesListingMember(p, es, q);
      var i :| 0 <= i < |es| && q in FileListing(p + [es[i].name], es[i].node);
      var c := p + [es[i].name];
      ListingSound(c, es[i].node, q);
      ChildAt(es, i);
      NextSegment(p, es[i].name, q);
      var rel := q[|p|..];
      assert rel[1..] == q[|c|..];
      assert q[..|p|] == q[..|c|][..|p|];
  }

  /** Below a valid root, every listed path is made of valid names. */
  lemma {:induction false} ListingValid(p: Path, n: Node, q: Path)
    requires ValidPath(p) && WellFormed(n) && q in FileListing(p, n)
    ensures ValidPath(q)
    decreases n
  {
    match n
    case Leaf =>
    case Dir(es) =>
      EntriesListingMember(p, es, q);
      var i :| 0 <= i < |es| && q in FileListing(p + [es[i].name], es[i].node);
      ListingValid(p + [es[i].name], es[i].node, q);
  }

  /** Listing and leaves agree: `q` is listed exactly when it is the path of a leaf. */
  lemma ListingIffLeaf(p: Path, n: Node, q: Path)
    requires WellFormed(n)
    ensures q in FileListing(p, n) <==> IsLeafPath(p, n, q)
  {
    if q in FileListing(p, n) {
      ListingSound(p, n, q);
    }
    if IsLeafPath(p, n, q) {
      ListingComplete(p, n, q[|p|..]);
      assert p + q[|p|..] == q;
    }
  }

  /** On a well-formed tree no leaf is listed twice. */
  lemma {:induction false} ListingDistinct(p: Path, n: Node)
    requires WellFormed(n)
    ensures Distinct(FileListing(p, n))
    decreases n
  {
    match n
    case Leaf =>
    case Dir(es) => EntriesDistinct(p, es);
  }

  /** Listings of the first entry and of the later entries share no path. */
  lemma {:induction false} FirstDisjointFromRest(p: Path, es: seq<Entry>, x: Path, y: Path)
    requires |es| > 0 && DistinctNames(es)
    requires x in FileListing(p + [es[0].name], es[0].node)
    requires y in EntriesListing(p, es[1..])
    ensures x != y
  {
    ListingUnderRoot(p + [es[0].name], es[0].node);
    NextSegment(p, es[0].name, x);
    EntriesListingMember(p, es[1..], y);
    var k :| 0 <= k < |es[1..]| && y in FileListing(p + [es[1..][k].name], es[1..][k].node);
    ListingUnderRoot(p + [es[1..][k].name], es[1..][k].node);
    NextSegment(p, es[1..][k].name, y);
    assert es[1..][k] == es[k + 1];
  }

  /** A path below `p + [name]` continues `p` with `name`. */
  lemma NextSegment(p: Path, name: string, x: Path)
    requires IsPrefix(p + [name], x)
    ensures |x| > |p| && x[|p|] == name
  {
    assert x[..|p| + 1][|p|] == name;
  }

  lemma {:induction false} EntriesDistinct(p: Path, es: seq<Entry>)
    requires DistinctNames(es) && forall i :: 0 <= i < |es| ==> WellFormed(es[i].node)
    ensures Distinct(EntriesListing(p, es))
    decreases es
  {
    if |es| > 0 {
      var a := FileListing(p + [es[0].name], es[0].node);
      var b := EntriesListing(p, es[1..]);
      ListingDistinct(p + [es[0].name], es[0].node);
      EntriesDistinct(p, es[1..]);
      forall x, y | x in a && y in b
        ensures x != y
      {
        FirstDisjointFromRest(p, es, x, y);
      }
      DistinctConcat(a, b);
    }
  }
}

=== FILE: file_tree.dfy ===
/**
 The filesystem as `lstat` and `readdir` see it: a finite tree whose inner
 nodes are directories with their entries in `readdir` order, and whose leaves
 are everything `lstat` does not report as a directory (regular files and
 symbolic links alike, since `lstat` does not follow links).
 */
module FileTree {
  import opened Base

  datatype Node = Leaf | Dir(entries: seq<Entry>)

  datatype Entry = Entry(name: string, node: Node)

  /** No two entries of one directory share a name. */
  predicate DistinctNames(es: seq<Entry>) {
    forall i, j :: 0 <= i < j < |es| ==> es[i].name != es[j].name
  }

  /**
   Every directory of the tree has distinctly and validly named entries, as
   on a real disk.
   */
  predicate WellFormed(n: Node) {
    match n
    case Leaf => true
    case Dir(es) =>
      && DistinctNames(es)
      && (forall i :: 0 <= i < |es| ==> ValidName(es[i].name))
      && (forall i :: 0 <= i < |es| ==> WellFormed(es[i].node))
  }

  /** The node a directory entry name leads to (the first entry of that name). */
  function Child(es: seq<Entry>, name: string): (r: Option<Node>)
    ensures r.None? <==> forall i :: 0 <= i < |es| ==> es[i].name != name
    ensures r.Some? ==> exists i :: 0 <= i < |es| && es[i].name == name && es[i].node == r.value
  {
    if |es| == 0 then None
    else if es[0].name == name then Some(es[0].node)
    else Child(es[1..], name)
  }

  /** With distinct names, the entry at index `i` is the one its name leads to. */
  lemma {:induction false} ChildAt(es: seq<Entry>, i: nat)
    requires DistinctNames(es) && i < |es|
    ensures Child(es, es[i].name) == Some(es[i].node)
  {
    if i > 0 {
      assert es[0].name != es[i].name;
      assert es[1..][i - 1] == es[i];
      ChildAt(es[1..], i - 1);
    }
  }

  /** The node reached from `n` by following the relative path `rel`, as `lstat` resolves it. */
  function Lookup(n: Node, rel: Path): Option<Node>
    decreases |rel|
  {
    if |rel| == 0 then Some(n)
    else
      match n
      case Leaf => None
      case Dir(es) =>
        match Child(es, rel[0])
        case None => None
        case Some(c) => Lookup(c, rel[1..])
  }

  /** Number of leaves below a node. */
  function LeafCount(n: Node): nat
    decreases n
  {
    match n
    case Leaf => 1
    case Dir(es) => LeafCountEntries(es)
  }

  function LeafCountEntries(es: seq<Entry>): nat
    decreases es
  {
    if |es| == 0 then 0 else LeafCount(es[0].node) + LeafCountEntries(es[1..])
  }
}

=== FILE: indexer.dfy ===
/**
 The settings indexer (`index`): one pass over the file listing of the
 settings directory, filing every settings file under its category and id,
 skipping the ids excluded for that category. A later path with the same
 category and id replaces an earlier one.
 */
module Indexer {
  import opened Base
  import opened SettingsFile

  /** The ids the operator excluded, per category (JavaScript arrays of id strings). */
  datatype Exclusions = Exclusions(userExclude: seq<string>, charExclude: seq<string>) {
    function Get(cat: Category): seq<string> {
      match cat
      case User => userExclude
      case Char => charExclude
    }
  }

  /** The two id-to-path collections of the run state. */
  datatype SettingsIndex = SettingsIndex(users: map<string, Path>, chars: map<string, Path>) {
    function Get(cat: Category): map<string, Path> {
      match cat
      case User => users
      case Char => chars
    }

    /** `STATE[cat][id] = p`. */
    function Put(cat: Category, id: string, p: Path): (r: SettingsIndex)
      ensures r.Get(cat) == Get(cat)[id := p]
      ensures forall other :: other != cat ==> r.Get(other) == Get(other)
    {
      match cat
      case User => this.(users := users[id := p])
      case Char => this.(chars := chars[id := p])
    }
  }

  /** The classifier applied to the resolved path string, as the indexer does. */
  function ClassifyPath(p: Path): Option<Setting> {
    Classify(PathString(p))
  }

  /**
   A path classifier. The indexer is stated for any classifier; the program
   uses `ClassifyPath`, and keeping the pattern abstract here keeps its string
   reasoning out of the proofs about the indexing loop.
   */
  type Classifier = Path -> Option<Setting>

  /** The body of the `forEach` callback for one listed path. */
  function IndexStep(cls: Classifier, idx: SettingsIndex, x: Exclusions, p: Path): SettingsIndex {
    var r := cls(p);
    if r.None? || r.value.id in x.Get(r.value.category) then idx
    else idx.Put(r.value.category, r.value.id, p)
  }

  /** One step stores `p` under `(cat, id)` exactly when `p` classifies so and `id` is not excluded. */
  lemma StepEffect(cls: Classifier, idx: SettingsIndex, x: Exclusions, p: Path, cat: Category, id: string)
    ensures var stored := cls(p) == Some(Setting(cat, id)) && id !in x.Get(cat);
      var after := IndexStep(cls, idx, x, p).Get(cat);
      && (id in after <==> stored || id in idx.Get(cat))
      && (stored ==> after[id] == p)
      && (!stored && id in idx.Get(cat) ==> after[id] == idx.Get(cat)[id])
  {
  }

  /** `index()`: the callback applied to each listed path in order, from empty collections. */
  function Index(cls: Classifier, listing: seq<Path>, x: Exclusions): SettingsIndex
    decreases |listing|
  {
    if |listing| == 0 then SettingsIndex(map[], map[])
    else IndexStep(cls, Index(cls, listing[..|listing| - 1], x), x, listing[|listing| - 1])
  }

  /** Some listed path is a settings file of category `cat` and id `id`. */
  predicate Found(cls: Classifier, listing: seq<Path>, cat: Category, id: string) {
    exists j :: 0 <= j < |listing| && cls(listing[j]) == Some(Setting(cat, id))
  }

  /**
   Which ids get indexed: an id is in a category's collection exactly when
   some listed path classifies as that category and id, and the id is not
   excluded for that category. Non-matching paths contribute nothing.
   */
  lemma {:induction false} IndexDomain(cls: Classifier, listing: seq<Path>, x: Exclusions, cat: Category, id: string)
    ensures id in Index(cls, listing, x).Get(cat) <==> id !in x.Get(cat) && Found(cls, listing, cat, id)
    decreases |listing|
  {
    if |listing| > 0 {
      var front := listing[..|listing| - 1];
      var last := listing[|listing| - 1];
      IndexDomain(cls, front, x, cat, id);
      StepEffect(cls, Index(cls, front, x), x, last, cat, id);
      FoundSnoc(cls, listing, cat, id);
    }
  }

  lemma FoundSnoc(cls: Classifier, listing: seq<Path>, cat: Category, id: string)
    requires |listing| > 0
    ensures Found(cls, listing, cat, id) <==>
      Found(cls, listing[..|listing| - 1], cat, id) || cls(listing[|listing| - 1]) == Some(Setting(cat, id))
  {
    var front := listing[..|listing| - 1];
    if Found(cls, front, cat, id) {
      var j :| 0 <= j < |front| && cls(front[j]) == Some(Setting(cat, id));
      assert listing[j] == front[j];
    }
    if Found(cls, listing, cat, id) {
      var j :| 0 <= j < |listing| && cls(listing[j]) == Some(Setting(cat, id));
      if j < |front| {
        assert front[j] == listing[j];
      } else {
        assert listing[j] == listing[|listing| - 1];
      }
    }
  }

  /**
   Every stored path is a listed path that classifies as its own category
   and key, and no stored id is excluded for its category.
   */
  lemma {:induction false} IndexValues(cls: Classifier, listing: seq<Path>, x: Exclusions, cat: Category, id: string)
    requires id in Index(cls, listing, x).Get(cat)
    ensures id !in x.Get(cat)
    ensures Index(cls, listing, x).Get(cat)[id] in listing
    ensures cls(Index(cls, listing, x).Get(cat)[id]) == Some(Setting(cat, id))
    decreases |listing|
  {
    var front := listing[..|listing| - 1];
    var last := listing[|listing| - 1];
    StepEffect(cls, Index(cls, front, x), x, last, cat, id);
    if !(cls(last) == Some(Setting(cat, id)) && id !in x.Get(cat)) {
      IndexValues(cls, front, x, cat, id);
    }
  }

  /**
   Last write wins: the path stored for a non-excluded id is the last listed
   path of that category and id.
   */
  lemma {:induction false} IndexLastWins(cls: Classifier, listing: seq<Path>, x: Exclusions, cat: Category, id: string, j: nat)
    requires j < |listing| && cls(listing[j]) == Some(Setting(cat, id))
    requires id !in x.Get(cat)
    requires forall k :: j < k < |listing| ==> cls(listing[k]) != Some(Setting(cat, id))
    ensures id in Index(cls, listing, x).Get(cat)
    ensures Index(cls, listing, x).Get(cat)[id] == listing[j]
    decreases |listing|
  {
    var front := listing[..|listing| - 1];
    StepEffect(cls, Index(cls, front, x), x, listing[|listing| - 1], cat, id);
    if j < |listing| - 1 {
      assert front[j] == listing[j];
      forall k | j < k < |front|
        ensures cls(front[k]) != Some(Setting(cat, id))
      {
        assert front[k] == listing[k];
      }
      IndexLastWins(cls, front, x, cat, id, j);
    }
  }
}

=== FILE: settings_file.dfy ===
/**
 The settings-file name classifier: the pattern `core_(user|char)_(\d+).dat$`
 applied to a whole resolved path string. As written in the program the `.`
 before `dat` is not escaped, so it stands for any one character other than a
 JavaScript line terminator that JavaScript stores as a single UTF-16 code
 unit; the pattern is anchored only at the end, so the match may reach across
 directory separators.
 */
module SettingsFile {
  import opened Base

  datatype Category = User | Char {
    /** The category word as it appears in file names and messages. */
    function Name(): string {
      match this
      case User => "user"
      case Char => "char"
    }
  }

  /** A classified settings file: its category and its numeric-string id. */
  datatype Setting = Setting(category: Category, id: string)

  /** Characters that a JavaScript `.` (without the `s` flag) does not match. */
  predicate IsLineTerminator(c: char) {
    c == '\n' || c == '\r' || c == '\U{2028}' || c == '\U{2029}'
  }

  /**
   Characters JavaScript stores as one UTF-16 code unit: those of the Basic
   Multilingual Plane. A pattern without the `u` flag matches code units, so
   its `.` can never take a character outside that plane, which is two.
   */
  predicate IsSingleUnit(c: char) {
    (c as int) < 0x1_0000
  }

  /** The characters the unescaped `.` of the pattern matches. */
  predicate DotMatches(c: char) {
    !IsLineTerminator(c) && IsSingleUnit(c)
  }

  /**
   Reference reading of the pattern: `s` ends with `core_<cat>_<id>`, then one
   character that the `.` matches, then `dat`, with `id` a non-empty run of
   ASCII digits.
   */
  predicate Matches(s: string, cat: Category, id: string) {
    && |id| > 0
    && AllDigits(id)
    && |s| >= 4
    && s[|s| - 3..] == "dat"
    && DotMatches(s[|s| - 4])
    && EndsWith(s[..|s| - 4], "core_" + cat.Name() + "_" + id)
  }

  /** The longest run of digits at the end of `s`. */
  function TrailingDigits(s: string): (d: string)
    ensures |d| <= |s| && EndsWith(s, d) && AllDigits(d)
    ensures |d| < |s| ==> !IsDigit(s[|s| - |d| - 1])
  {
    if |s| == 0 || !IsDigit(s[|s| - 1]) then []
    else
      var d := TrailingDigits(s[..|s| - 1]) + [s[|s| - 1]];
      assert s[..|s| - 1][|s| - 1 - (|d| - 1)..] == d[..|d| - 1];
      d
  }

  /**
   Parser for the settings-file pattern: `Some(Setting(cat, id))` when the
   pattern matches `s`, `None` otherwise. The match is read from the end:
   `dat`, one arbitrary character, the digit run, then `core_user_` or
   `core_char_`.
   */
  function Classify(s: string): (r: Option<Setting>)
    ensures r.Some? ==> |r.value.id| > 0 && AllDigits(r.value.id)
  {
    if |s| < 4 || s[|s| - 3..] != "dat" || !DotMatches(s[|s| - 4]) then None
    else
      var body := s[..|s| - 4];
      var id := TrailingDigits(body);
      var head := body[..|body| - |id|];
      if |id| == 0 then None
      else if EndsWith(head, "core_user_") then Some(Setting(User, id))
      else if EndsWith(head, "core_char_") then Some(Setting(Char, id))
      else None
  }

  /** Whatever the classifier reports is a match of the pattern. */
  lemma ClassifySound(s: string)
    requires Classify(s).Some?
    ensures Matches(s, Classify(s).value.category, Classify(s).value.id)
  {
    var body := s[..|s| - 4];
    var id := TrailingDigits(body);
    var head := body[..|body| - |id|];
    var cat := Classify(s).value.category;
    var word := "core_" + cat.Name() + "_";
    assert EndsWith(head, word);
    assert body == head + id;
    EndsWithAppend(head, word, id);
  }

  /** The file name the program's not-found message tells the operator to look for. */
  function FileName(cat: Category, id: string): string {
    "core_" + cat.Name() + "_" + id + ".dat"
  }

  /** When `s` ends with `core_<cat>_<id>` and `id` is all digits, the digit run of `s` is exactly `id`. */
  lemma {:induction false} TrailingDigitsAfterUnderscore(s: string, cat: Category, id: string)
    requires |id| > 0 && AllDigits(id)
    requires EndsWith(s, "core_" + cat.Name() + "_" + id)
    ensures TrailingDigits(s) == id
  {
    var d := TrailingDigits(s);
    var n := |s|;
    // The character just before `id` is the underscore, which is not a digit.
    assert s[n - |id| - 1] == '_';
    assert |d| == |id|;
  }

  /** Every match of the pattern is reported, with its category and id. */
  lemma ClassifyComplete(s: string, cat: Category, id: string)
    requires Matches(s, cat, id)
    ensures Classify(s) == Some(Setting(cat, id))
  {
    var body := s[..|s| - 4];
    TrailingDigitsAfterUnderscore(body, cat, id);
    var head := body[..|body| - |id|];
    var word := "core_" + cat.Name() + "_";
    assert EndsWith(head, word);
    if cat == Char {
      assert head[|head| - 10..] == "core_char_";
      assert !EndsWith(head, "core_user_");
    }
  }

  /** The classifier and the reference reading agree on every string, in both directions. */
  lemma ClassifyIffMatches(s: string, cat: Category, id: string)
    ensures Classify(s) == Some(Setting(cat, id)) <==> Matches(s, cat, id)
  {
    if Classify(s).Some? {
      ClassifySound(s);
    }
    if Matches(s, cat, id) {
      ClassifyComplete(s, cat, id);
    }
  }

  /** The category and the id are determined by the path string. */
  lemma MatchUnique(s: string, c1: Category, i1: string, c2: Category, i2: string)
    requires Matches(s, c1, i1) && Matches(s, c2, i2)
    ensures c1 == c2 && i1 == i2
  {
    ClassifyIffMatches(s, c1, i1);
    ClassifyIffMatches(s, c2, i2);
  }

  /** A well-formed settings file name classifies as its own category and id. */
  lemma ClassifyFileName(prefix: string, cat: Category, id: string)
    requires |id| > 0 && AllDigits(id)
    ensures Classify(prefix + FileName(cat, id)) == Some(Setting(cat, id))
  {
    var s := prefix + FileName(cat, id);
    assert s[..|s| - 4] == prefix + ("core_" + cat.Name() + "_" + id);
    ClassifyIffMatches(s, cat, id);
  }

  /**
   Because the `.` is unescaped, a file called `dat` inside a directory called
   `core_user_12` is taken for user 12's settings file.
   */
  lemma DotMatchesSeparator()
    ensures Classify(PathString(["settings", "core_user_12", "dat"])) == Some(Setting(User, "12"))
  {
    var p: Path := ["settings", "core_user_12", "dat"];
    var s := PathString(p);
    assert p[..1][..0] == [] && p[..2][..1] == p[..1] && p[..3][..2] == p[..2];
    assert Segments(p[..1]) == "/settings";
    assert Segments(p[..2]) == "/settings/core_user_12";
    assert s == "/settings/core_user_12/dat";
    assert s[..|s| - 4] == "/settings/" + "core_user_12";
    assert Matches(s, User, "12");
    ClassifyIffMatches(s, User, "12");
  }

  /**
   A character outside the Basic Multilingual Plane before `dat` is two code
   units: the `.` takes the second, and the first is not a digit, so there
   is no match.
   */
  lemma WideCharBeforeDatNoMatch()
    ensures Classify("core_user_12\U{1F600}dat") == None
  {
    var s := "core_user_12\U{1F600}dat";
    assert !DotMatches(s[|s| - 4]);
  }

  /** The digit that precedes `dat` is taken by the `.`, not by the id. */
  lemma DotTakesLastDigit()
    ensures Classify("core_char_123dat") == Some(Setting(Char, "12"))
  {
    var s := "core_char_123dat";
    assert s[..|s| - 4] == "core_char_12";
    assert Matches(s, Char, "12");
    ClassifyIffMatches(s, Char, "12");
  }
}

=== FILE: settings_ids.dfy ===
/**
 The id lister behind the interactive choices (`getSettingsIds`): the ids of
 the settings files of one category below a directory, excluded ids left
 out, most recently modified first. Modification times are a parameter,
 one integer per path; equal times keep listing order, as JavaScript's
 `Array.prototype.sort` is stable.
 */
module SettingsIds {
  import opened Base
  import opened FileTree
  import opened FileLister
  import opened SettingsFile
  import opened Indexer

  /** The `filter` callback: a settings file of category `cat` whose id is not excluded. */
  predicate IsSelected(cls: Classifier, p: Path, cat: Category, excl: seq<string>) {
    cls(p).Some? && cls(p).value.category == cat && cls(p).value.id !in excl
  }

  /** The listing filtered by `IsSelected`, in listing order. */
  function Selected(cls: Classifier, s: seq<Path>, cat: Category, excl: seq<string>): (r: seq<Path>)
    ensures forall p :: p in r <==> p in s && IsSelected(cls, p, cat, excl)
    decreases |s|
  {
    if |s| == 0 then []
    else
      var front := Selected(cls, s[..|s| - 1], cat, excl);
      var last := s[|s| - 1];
      assert forall p :: p in s <==> p in s[..|s| - 1] || p == last by {
        assert s == s[..|s| - 1] + [last];
      }
      if IsSelected(cls, last, cat, excl) then front + [last] else front
  }

  /**
   The filter works element by element: filtering a concatenation is
   concatenating the filtered parts, so the kept paths stay in listing
   order, each as often as it is listed.
   */
  lemma {:induction false} SelectedConcat(cls: Classifier, a: seq<Path>, b: seq<Path>, cat: Category, excl: seq<string>)
    ensures Selected(cls, a + b, cat, excl) == Selected(cls, a, cat, excl) + Selected(cls, b, cat, excl)
    decreases |b|
  {
    if |b| == 0 {
      assert a + b == a;
    } else {
      assert (a + b)[..|a + b| - 1] == a + b[..|b| - 1];
      SelectedConcat(cls, a, b[..|b| - 1], cat, excl);
    }
  }

  /** No two elements out of order: modification times never increase along `s`. */
  predicate NewestFirst(s: seq<Path>, mtime: Path -> int) {
    forall i, j :: 0 <= i < j < |s| ==> mtime(s[i]) >= mtime(s[j])
  }

  /** The elements of `s` with modification time `k`, in order. */
  function WithTime(s: seq<Path>, mtime: Path -> int, k: int): seq<Path>
    decreases |s|
  {
    if |s| == 0 then []
    else WithTime(s[..|s| - 1], mtime, k) + (if mtime(s[|s| - 1]) == k then [s[|s| - 1]] else [])
  }

  lemma {:induction false} WithTimeConcat(a: seq<Path>, b: seq<Path>, mtime: Path -> int, k: int)
    ensures WithTime(a + b, mtime, k) == WithTime(a, mtime, k) + WithTime(b, mtime, k)
    decreases |b|
  {
    if |b| == 0 {
      assert a + b == a;
    } else {
      assert (a + b)[..|a + b| - 1] == a + b[..|b| - 1];
      WithTimeConcat(a, b[..|b| - 1], mtime, k);
    }
  }

  /**
   One step of the stable sort: `x` goes after every element that is at
   least as recent, and before the older ones.
   */
  function Insert(s: seq<Path>, x: Path, mtime: Path -> int): seq<Path>
    decreases |s|
  {
    if |s| == 0 || mtime(s[|s| - 1]) >= mtime(x) then s + [x]
    else Insert(s[..|s| - 1], x, mtime) + [s[|s| - 1]]
  }

  /** `sort((a, b) => mtime(b) - mtime(a))`, the comparator the program passes. */
  function SortNewestFirst(s: seq<Path>, mtime: Path -> int): seq<Path>
    decreases |s|
  {
    if |s| == 0 then []
    else Insert(SortNewestFirst(s[..|s| - 1], mtime), s[|s| - 1], mtime)
  }

  lemma {:induction false} InsertPermutes(s: seq<Path>, x: Path, mtime: Path -> int)
    ensures multiset(Insert(s, x, mtime)) == multiset(s) + multiset{x}
    decreases |s|
  {
    if |s| > 0 && mtime(s[|s| - 1]) < mtime(x) {
      var front := s[..|s| - 1];
      InsertPermutes(front, x, mtime);
      assert s == front + [s[|s| - 1]];
    }
  }

  lemma {:induction false} InsertOrdered(s: seq<Path>, x: Path, mtime: Path -> int)
    requires NewestFirst(s, mtime)
    ensures NewestFirst(Insert(s, x, mtime), mtime)
    decreases |s|
  {
    if |s| > 0 && mtime(s[|s| - 1]) < mtime(x) {
      var front := s[..|s| - 1];
      var last := s[|s| - 1];
      InsertOrdered(front, x, mtime);
      InsertPermutes(front, x, mtime);
      var ins := Insert(front, x, mtime);
      forall i | 0 <= i < |ins|
        ensures mtime(ins[i]) >= mtime(last)
      {
        assert ins[i] in multiset(ins);
        if ins[i] != x {
          assert ins[i] in multiset(front);
        }
      }
    }
  }

  lemma {:induction false} InsertStable(s: seq<Path>, x: Path, mtime: Path -> int, k: int)
    requires NewestFirst(s, mtime)
    ensures WithTime(Insert(s, x, mtime), mtime, k) == WithTime(s, mtime, k) + WithTime([x], mtime, k)
    decreases |s|
  {
    if |s| == 0 || mtime(s[|s| - 1]) >= mtime(x) {
      WithTimeConcat(s, [x], mtime, k);
    } else {
      var front := s[..|s| - 1];
      var last := s[|s| - 1];
      InsertStable(front, x, mtime, k);
      WithTimeConcat(Insert(front, x, mtime), [last], mtime, k);
      WithTimeConcat(front, [last], mtime, k);
      assert s == front + [last];
      assert [x][..0] == [] && [last][..0] == [];
    }
  }

  /**
   The sort is a stable sort, newest first: it permutes its input, puts
   more recent paths before older ones, and keeps paths of equal
   modification time in their original order.
   */
  lemma {:induction false} SortSpec(s: seq<Path>, mtime: Path -> int)
    ensures multiset(SortNewestFirst(s, mtime)) == multiset(s)
    ensures NewestFirst(SortNewestFirst(s, mtime), mtime)
    ensures forall k :: WithTime(SortNewestFirst(s, mtime), mtime, k) == WithTime(s, mtime, k)
    decreases |s|
  {
    if |s| > 0 {
      var front := s[..|s| - 1];
      var last := s[|s| - 1];
      SortSpec(front, mtime);
      var sorted := SortNewestFirst(front, mtime);
      InsertPermutes(sorted, last, mtime);
      InsertOrdered(sorted, last, mtime);
      assert s == front + [last];
      forall k
        ensures WithTime(SortNewestFirst(s, mtime), mtime, k) == WithTime(s, mtime, k)
      {
        InsertStable(sorted, last, mtime, k);
        WithTimeConcat(front, [last], mtime, k);
      }
    }
  }

  /** Filtering commutes with picking out the paths of one modification time. */
  lemma {:induction false} SelectedWithTime(cls: Classifier, s: seq<Path>, cat: Category, excl: seq<string>, mtime: Path -> int, k: int)
    ensures WithTime(Selected(cls, s, cat, excl), mtime, k) == Selected(cls, WithTime(s, mtime, k), cat, excl)
    decreases |s|
  {
    if |s| > 0 {
      var front := s[..|s| - 1];
      var last := s[|s| - 1];
      SelectedWithTime(cls, front, cat, excl, mtime, k);
      var kept := if IsSelected(cls, last, cat, excl) then [last] else [];
      var timed := if mtime(last) == k then [last] else [];
      WithTimeConcat(Selected(cls, front, cat, excl), kept, mtime, k);
      SelectedConcat(cls, WithTime(front, mtime, k), timed, cat, excl);
      assert [last][..0] == [];
    }
  }

  /** The `map` callback: the id captured by the pattern. */
  function IdsOf(cls: Classifier, s: seq<Path>): (ids: seq<string>)
    requires forall i :: 0 <= i < |s| ==> cls(s[i]).Some?
    ensures |ids| == |s| && forall i :: 0 <= i < |s| ==> ids[i] == cls(s[i]).value.id
  {
    seq(|s|, i requires 0 <= i < |s| => cls(s[i]).value.id)
  }

  /** The selected paths, newest first. */
  function Ranked(cls: Classifier, listing: seq<Path>, cat: Category, excl: seq<string>, mtime: Path -> int): (r: seq<Path>)
    ensures forall i :: 0 <= i < |r| ==> IsSelected(cls, r[i], cat, excl)
  {
    var sel := Selected(cls, listing, cat, excl);
    var r := SortNewestFirst(sel, mtime);
    SortSpec(sel, mtime);
    assert forall i :: 0 <= i < |r| ==> r[i] in sel by {
      forall i | 0 <= i < |r|
        ensures r[i] in sel
      {
        assert r[i] in multiset(r);
      }
    }
    r
  }

  /**
   Files with equal modification times are ranked in listing order: the
   files of each time, read off the ranking, are exactly the selected files
   of that time in the order the listing gives them. Among several newest
   files, the prompt's default is therefore the one listed first.
   */
  lemma TiesInListingOrder(cls: Classifier, listing: seq<Path>, cat: Category, excl: seq<string>, mtime: Path -> int)
    ensures forall k :: WithTime(Ranked(cls, listing, cat, excl, mtime), mtime, k)
                     == Selected(cls, WithTime(listing, mtime, k), cat, excl)
  {
    SortSpec(Selected(cls, listing, cat, excl), mtime);
    forall k
      ensures WithTime(Ranked(cls, listing, cat, excl, mtime), mtime, k)
           == Selected(cls, WithTime(listing, mtime, k), cat, excl)
    {
      SelectedWithTime(cls, listing, cat, excl, mtime, k);
    }
  }

  /** The id list built from one listing. */
  function IdsFromListing(cls: Classifier, listing: seq<Path>, cat: Category, excl: seq<string>, mtime: Path -> int): seq<string> {
    IdsOf(cls, Ranked(cls, listing, cat, excl, mtime))
  }

  /**
   `getSettingsIds(dir, cat)` on the filesystem `root`, without its cache;
   a missing directory fails the listing's `lstat`.
   */
  function GetSettingsIds(root: Node, dir: Path, cat: Category, excl: seq<string>, mtime: Path -> int): (r: Result<seq<string>, FsError>)
    ensures r.Failure? <==> Lookup(root, dir).None?
  {
    var listing :- FileListingAt(root, dir);
    Success(IdsFromListing(ClassifyPath, listing, cat, excl, mtime))
  }

  /**
   The ids offered are exactly the ids the indexer would store for the same
   listing and exclusions, each attached to a listed file of the category.
   */
  lemma IdsMatchIndex(cls: Classifier, listing: seq<Path>, x: Exclusions, cat: Category, id: string, mtime: Path -> int)
    ensures id in IdsFromListing(cls, listing, cat, x.Get(cat), mtime) <==> id in Index(cls, listing, x).Get(cat)
  {
    IndexDomain(cls, listing, x, cat, id);
    OfferedIff(cls, listing, cat, x.Get(cat), id, mtime);
  }

  /** An id is offered exactly when a listed file of the category carries it and it is not excluded. */
  lemma OfferedIff(cls: Classifier, listing: seq<Path>, cat: Category, excl: seq<string>, id: string, mtime: Path -> int)
    ensures id in IdsFromListing(cls, listing, cat, excl, mtime) <==> id !in excl && Found(cls, listing, cat, id)
  {
    var sel := Selected(cls, listing, cat, excl);
    var r := Ranked(cls, listing, cat, excl, mtime);
    var ids := IdsFromListing(cls, listing, cat, excl, mtime);
    SortSpec(sel, mtime);
    if id in ids {
      var i :| 0 <= i < |ids| && ids[i] == id;
      assert r[i] in multiset(r);
      var j :| 0 <= j < |listing| && listing[j] == r[i];
      assert cls(listing[j]) == Some(Setting(cat, id));
    }
    if id !in excl && Found(cls, listing, cat, id) {
      var j :| 0 <= j < |listing| && cls(listing[j]) == Some(Setting(cat, id));
      assert listing[j] in sel;
      assert listing[j] in multiset(r);
      var i :| 0 <= i < |r| && r[i] == listing[j];
      assert ids[i] == id;
    }
  }

  /**
   Order of the offered ids: each id comes from a selected file, and a
   file's id comes before the id of every older selected file. The first
   id, the default answer of the prompt, belongs to a newest file.
   */
  lemma IdsNewestFirst(cls: Classifier, listing: seq<Path>, cat: Category, excl: seq<string>, mtime: Path -> int)
    ensures var r := Ranked(cls, listing, cat, excl, mtime);
      var ids := IdsFromListing(cls, listing, cat, excl, mtime);
      && |ids| == |r|
      && (forall i :: 0 <= i < |r| ==> r[i] in listing && cls(r[i]) == Some(Setting(cat, ids[i])))
      && (forall i, j :: 0 <= i < j < |r| ==> mtime(r[i]) >= mtime(r[j]))
      && (|r| > 0 ==> forall p :: p in listing && IsSelected(cls, p, cat, excl) ==> mtime(p) <= mtime(r[0]))
  {
    var sel := Selected(cls, listing, cat, excl);
    var r := Ranked(cls, listing, cat, excl, mtime);
    SortSpec(sel, mtime);
    forall i | 0 <= i < |r|
      ensures r[i] in listing
    {
      assert r[i] in multiset(r);
    }
    if |r| > 0 {
      forall p | p in listing && IsSelected(cls, p, cat, excl)
        ensures mtime(p) <= mtime(r[0])
      {
        assert p in multiset(r);
        var i :| 0 <= i < |r| && r[i] == p;
      }
    }
  }
}
